=== FILE: README.md ===
# Surf-CYD in Dafny

Surf-CYD is ESP32 "Cheap Yellow Display" firmware that shows the next-hour surf
forecast for one spot:
- it geocodes a place name with the Open-Meteo geocoding service;
- it fetches the marine forecast for the coordinates;
- it draws the wave height with a happy or sad face.

Setup happens on the touch screen: Wi-Fi credentials, a surf location, and a wave
height that counts as "happy". The settings persist in four small JSON files.

This project models the pure rules under that orchestration and proves
properties of them. Three revisions of the firmware are covered, and they share
one set of definitions:
- the modular firmware: `src/Network.cpp`, `src/TouchUI.cpp`, `src/Storage.cpp`,
  `src/Theme.cpp` and `src/Display.cpp`;
- the older single-file firmware, `src/main.cpp`;
- the oldest serial-console firmware, `main.cpp`.

| module | file | what it holds |
|---|---|---|
| `Common` | common.dfy | `Option`, the `Step` of a blocking screen (`Continue(state)` / `Done(result)`), `Run` over a sequence of inputs and the `RunKeeps` invariant lemma; Arduino `indexOf` and `substring + "..."` |
| `Geometry` | geometry.dfy | `Rect`, the half-open hit test, Arduino `map` with C truncating division, the `int16_t` store, `constrain`, and `getTouchPoint` in both orientations |
| `UrlCodec` | urlcodec.dfy | `urlEncode` over bytes, with a reference decoder proving it injective |
| `Types` | types.dfy | `LocationInfo`, `SurfForecast`, `WifiCredentials`, and the two built-in default spots |
| `Storage` | storage.dfy | the four documents over an abstract file map, with read and write failures as flags |
| `Network` | network.dfy | display-name composition, geocode result mapping, first-or-invalid lookup, forecast extraction, and the 60-poll connection wait |
| `Theming` | theming.dfy | the two RGB565 palettes, `invertColor`, `applyTheme` and the theme toggle |
| `Keyboard` | keyboard.dfy | key grid layout, hit scan, edit rules and entry-box text, for the shifted keyboard and the older uppercase-only one |
| `Display` | display.dfy | spot-name shortening, the happy test, and the control-button layouts |
| `Wizards` | wizards.dfy | Wi-Fi setup, list picker, default picker, wave-threshold stepper and location setup |
| `MainScreen` | mainscreen.dfy | `handleMainScreenTouch`: priority, return codes and effects |
| `LegacyMain` | legacy.dfy | the `src/main.cpp` revision: name-only location file, delete helpers that reset globals, its location screen, its two buttons and its refresh loop |
| `SerialMain` | serial.dfy | the `main.cpp` revision: serial line assembly, credential fallback, connection wait, and the empty-reply guard |

## How the model is built

Every blocking screen is a pure function from state and input to a `Step`:
- the input is one touch, together with the answers of any screens or services
  the touch opens;
- `Run` feeds a sequence of such inputs;
- `RunKeeps` lifts a one-step invariant to a whole run.

The keyboard, the pickers, the geocoder, the radio and the flash filesystem are
never called. Their results are inputs:
- a store is `map<FileName, Record>`;
- an HTTP reply is a status plus an optional parsed document;
- the radio's answer to poll `i` is `status(i)`.

An Arduino `String` is a byte string, and `length()`, `substring` and `remove`
count bytes. A `string` in the model stands for those bytes, one element per
byte, so a character that UTF-8 writes as several bytes is several elements and
every length test and cut falls where the firmware's does.

Touch coordinates, screen sizes and layout arithmetic are unbounded integers. The
places where the firmware narrows to `int16_t` or divides with C semantics are
written out (`ToInt16`, `TruncDiv`). Wave thresholds are integer half-feet in the
stepper and reals elsewhere. Colours are `bv16`.

## Behaviour the proofs bring out

These behaviours are stated as lemmas because the code does them, whatever its
comments suggest:
- **"3 ft" button.** It returns the currently selected threshold, not 3 ft, and
  stores nothing, wherever on the button it is touched (`Wizards.WaveStep`,
  with the trace `Wizards.SkipReturnsCurrentNotThree`).
- **Empty arrays.** Forecast validity looks only at `time` being non-empty. An
  empty `wave_height` array gives a valid forecast of height 0
  (`Network.EmptyHeightsStillValid`).
- **"Please search and select location first".** On a location screen that
  starts empty, this branch is unreachable: a non-empty text always names a valid
  cached location (`Wizards.SaveNeverRefused`).
- **No geocoding give-up policy.** No counted reset exists after repeated
  geocoding failures. The older loop keeps its location name and retries forever
  (`LegacyMain.GeocodeRetriesForever`).
- **Result count.** The geocoder's `count` parameter only goes into the URL.
  Every result object the service returns is mapped
  (`Network.FetchLocationMatches`), so the number of matches is not bounded by
  `count`.
- **Old location file in the new firmware.** A location file written by the
  older firmware holds only a name. The modular firmware loads it as invalid
  (`LegacyMain.LocationFileAcrossVersions`).
- **"Forget Loc" in the older firmware.** It falls back to "Huntington Beach, CA"
  instead of asking again (`LegacyMain.ForgetLocationGeocodesDefault`).
- **Boot theme.** At boot the current theme is the dark palette not yet
  inverted (`Theming.BootThemeNotApplied`).

## Model

| member | source | states |
|---|---|---|
| `UrlCodec.EncodeByte` | src/Network.cpp:20-29 | an unreserved byte (ASCII letter, digit, `-`, `_`, `.`, `~`) encodes to itself and is the only kind that gives one byte; a space gives exactly `%20`; any other byte gives `%` followed by the uppercase hex digits of its high and low nibble; every output byte is unreserved, `%` or `0-9A-F` |
| `UrlCodec.SignedCharNibbles` | src/Network.cpp:26-28 | `(c >> 4) & 0x0F` and `c & 0x0F` on a signed `char` still give the byte's two hex digits, for bytes 0x80-0xFF too |
| `UrlCodec.UrlEncode` | src/Network.cpp:16-32 | the encoding is between one and three times as long as the input and uses only the encoded alphabet |
| `UrlCodec.UrlEncodeLoop` | src/main.cpp:436-450 | the character loop (identical in src/Network.cpp:16-32 and main.cpp:139-157) computes exactly the byte-wise encoding |
| `UrlCodec.UrlEncodeAppend` | src/Network.cpp:19-30 | `urlEncode(a + b) == urlEncode(a) + urlEncode(b)` |
| `UrlCodec.UrlEncodeUnreservedIdentity` | src/Network.cpp:21-22 | an input made only of unreserved bytes encodes to itself |
| `UrlCodec.EncodedIsQuerySafe` | src/Network.cpp:61 | the encoded name never contains `&`, `=`, `+`, `#`, `?` or a space, so it cannot break the query string it is spliced into |
| `UrlCodec.UrlDecodeEncode` | main.cpp:139-157 | decoding the encoding gives the input back, so distinct names never share an encoding |
| `Geometry.PointInRectHalfOpen` | src/TouchUI.cpp:19-21 | the top-left corner of a non-empty rect is inside; the column `x + w` and the row `y + h` are outside; an empty rect contains nothing |
| `Geometry.SeparatedAreDisjoint` | src/main.cpp:83-85 | with the same half-open test in the older firmware, two rects separated along one axis share no point |
| `Geometry.TruncDiv` | src/TouchUI.cpp:30-31 | the quotient rounds toward zero, as C division does inside Arduino `map` (the remainder has the dividend's sign) |
| `Geometry.ToInt16` | src/TouchUI.cpp:30-31 | storing the mapped `long` into `int16_t` keeps it modulo 2^16 in [-32768, 32767] and is the identity on values that fit |
| `Geometry.Constrain` | src/TouchUI.cpp:32-33 | `constrain` lands in [lo, hi], leaves values already in range unchanged, and sends values above `hi` to `hi` |
| `Geometry.TouchAxis` | src/main.cpp:92-95 | one mapped axis, in the older direct orientation as in the modular inverted one, is always in [0, extent - 1] |
| `Geometry.GetTouchPoint` | src/TouchUI.cpp:23-40 | pressed iff the controller reports a touch; an untouched panel gives (-1, -1, not pressed); a pressed point lies in [0, width - 1] x [0, height - 1] for every raw reading |
| `Geometry.InvertedAxisMonotone` | src/TouchUI.cpp:30 | for every 16-bit raw reading the inverted mapping is monotonically decreasing (no `int16_t` wrap happens) |
| `Geometry.InvertedAxisLeftEnd` | src/TouchUI.cpp:30-32 | raw minimum maps to the right edge, x = 479 |
| `Geometry.InvertedAxisRightEnd` | src/TouchUI.cpp:30-33 | raw maximum maps to the left edge, x = 0 |
| `Theming.InvertColor` | src/Theme.cpp:52-54 | `color ^ 0xFFFF` equals `0xFFFF - color`, shares no bit with the colour and together with it covers all sixteen |
| `Theming.InvertColorInvolution` | src/Theme.cpp:53 | inverting twice gives the colour back |
| `Theming.InvertThemeInvolution` | src/Theme.cpp:59-74 | inverting all sixteen fields twice gives the theme back |
| `Theming.ApplyTheme` | src/Theme.cpp:56-75 | the installed theme depends on `darkMode` alone, and inverting it field by field gives back exactly the dark palette when `darkMode` holds, otherwise the light palette |
| `Theming.ApplyThemeSelectsByMode` | src/Theme.cpp:57 | the dark palette is selected iff `darkMode` (installed background white vs black) |
| `Theming.Apply` | src/Theme.cpp:56-75 | `applyTheme()` keeps the mode and installs the inversion of the palette the mode selects |
| `Theming.Toggle` | src/TouchUI.cpp:494-495 | the theme button flips `darkMode` and installs the inversion of the other palette |
| `Theming.ApplyIdempotentToggleInvolution` | src/Theme.cpp:56-75 | applying twice equals applying once; from an applied state, toggling twice restores the state |
| `Theming.BootThemeNotApplied` | src/Theme.cpp:46 | at boot `currentTheme` is the raw dark palette, which the first `applyTheme()` changes |
| `Storage.ReadDocument` | src/Storage.cpp:37-54 | a document is read iff the file exists, opens and parses, and it is then the stored document |
| `Storage.WriteDocument` | src/Storage.cpp:20-32 | save returns exactly the write outcome; success replaces only the target file; failure commits nothing |
| `Storage.RemoveFile` | src/Storage.cpp:158-163 | after `exists`/`remove` the file is absent, no other file changes, and removing an absent file is a no-op |
| `Storage.LoadWifiCredentials` | src/Storage.cpp:35-61 | loaded credentials are valid iff the SSID is non-empty; a missing, unreadable or unparsable file gives the empty invalid credentials (src/main.cpp:144-170 is the same code) |
| `Storage.SaveWifiCredentials` | src/Storage.cpp:15-33 | only the Wi-Fi file changes; on success loading gives the same SSID and password, with validity recomputed from the SSID; failure leaves the store as it was |
| `Storage.DeleteWifiCredentials` | src/Storage.cpp:63-68 | only the Wi-Fi file changes, and every later load gives the empty invalid credentials |
| `Storage.LoadThemePreference` | src/Storage.cpp:89-112 | dark on any failure or missing key; light only when the file holds `"darkMode": false` |
| `Storage.SaveThemePreference` | src/Storage.cpp:70-87 | on success loading gives the saved mode; failure leaves the store; no other file changes |
| `Storage.LoadWaveHeightPreference` | src/Storage.cpp:133-156 | 1.0 ft on any failure or missing key; any other value is the file's `threshold` number |
| `Storage.SaveWaveHeightPreference` | src/Storage.cpp:114-131 | on success loading gives the saved threshold; failure leaves the store; no other file changes |
| `Storage.DeleteWaveHeightPreference` | src/Storage.cpp:158-163 | only the wave file changes, and every later load gives 1.0 ft |
| `Storage.LoadSurfLocationInfo` | src/Storage.cpp:188-218 | a loaded location is valid iff its name is non-empty and it is not at (0, 0); any failure gives the empty invalid location |
| `Storage.SaveSurfLocation` | src/Storage.cpp:165-186 | returns true iff the location is valid and the write succeeds; an invalid location leaves the store untouched; a successful save loads back with the same name and coordinates |
| `Storage.DeleteSurfLocation` | src/Storage.cpp:220-225 | only the location file changes, and every later load gives the empty invalid location |
| `Storage.SurfLocationRoundTrip` | src/Storage.cpp:165-212 | a valid location with a name and non-(0, 0) coordinates is saved and loads back equal |
| `Storage.DeletesAreIdempotentAndLocal` | src/Storage.cpp:63-225 | each delete is idempotent, and the loads of the other three kinds are unaffected by it |
| `Network.ComposeDisplayName` | src/Network.cpp:82-86 | the name is a prefix of the result; ", admin1" and ", country" add their lengths plus 2 only when non-empty; both empty gives the name alone |
| `Network.DisplayNameIsJoin` | main.cpp:213-222 | the composed name is the name and the non-empty region and country joined by ", ", so an empty part is never shown |
| `Network.ToLocationInfo` | src/Network.cpp:79-88 | each result object gives a valid location whose coordinates default to 0 and whose name is the composed display name |
| `Network.MapResults` | src/Network.cpp:78-89 | exactly one location per result object, in response order |
| `Network.FetchLocationMatches` | src/Network.cpp:56-91 | no radio, a non-200 status, an unparsable body or a missing `results` gives no match; otherwise one valid match per result, in order, however many the count parameter asked for |
| `Network.FetchLocation` | src/Network.cpp:93-98 | valid iff there is a match, and then it is the first match; otherwise the all-default invalid location |
| `Network.FetchLocationIsFirstResult` | src/Network.cpp:95-96 | on a usable reply the location is the mapping of the first result object |
| `Network.FetchSurfForecast` | src/Network.cpp:100-133 | valid iff connected, status 200, parsed, all four arrays present and `time` non-empty; then each field comes from element 0, defaulting to 0 or ""; every failure gives the all-zero invalid forecast |
| `Network.EmptyHeightsStillValid` | src/Network.cpp:123-128 | a reply whose height, period and direction arrays are empty still gives a valid forecast of height 0 |
| `Network.ConnectWifi` | src/Network.cpp:34-54 | invalid credentials are refused without polling; otherwise connected iff one of the first 60 polls reports a connection, stopping at the first such poll; failure makes exactly 60 polls |
| `Keyboard.KeyWidth` | src/TouchUI.cpp:74 | the key width for a row of 1-16 keys on the 480-pixel screen is non-negative |
| `Keyboard.KeyWidthsOfTheRows` | src/TouchUI.cpp:73-74 | rows of 10, 9 and 11 keys get widths 44, 49 and 40 |
| `Keyboard.RowLayout` | src/TouchUI.cpp:70-84 | the first key of a row starts at x = 8, each key ends 2 pixels before the next begins, the last ends at or before x = 472, and every key is 24 high at y = 66 + 28r |
| `Keyboard.KeysFitTheArrays` | src/TouchUI.cpp:45-49 | every layout (upper, lower, older) has 10 + 10 + 9 + 11 = 40 keys, within the 44 array slots |
| `Keyboard.KeysDisjoint` | src/TouchUI.cpp:71-84 | any two different keys of the grid are disjoint: 2-pixel gaps within a row, a 28-pixel pitch for 24-pixel-high rows |
| `Keyboard.HitKey` | src/TouchUI.cpp:104-110 | the key scan finds nothing iff no key from the given row on holds the point |
| `Keyboard.KeyTouchTypesItsLabel` | src/TouchUI.cpp:104-110 | a touch inside key (r, c) selects exactly that key's character |
| `Keyboard.SpecialKeysBelowGrid` | src/TouchUI.cpp:86-90 | a touch at y >= 180, where the special keys are, hits no letter key |
| `Keyboard.DoneKeyReachable` | src/main.cpp:296-299 | in both keyboards a touch on OK is recognised as OK |
| `Keyboard.Edit` | src/TouchUI.cpp:104-135 | the screen finishes iff OK is touched, returning the value unchanged; a key appends exactly its label; shift flips the case mode and nothing else; clear empties the value; space appends one blank; back removes exactly the last byte of a non-empty value and changes nothing on an empty one; no hit changes nothing |
| `Keyboard.KeyboardStep` | src/main.cpp:305-338 | an untouched panel changes nothing; a finished keyboard returns the value held; the older uppercase-only keyboard never changes case |
| `Keyboard.EditInverses` | src/TouchUI.cpp:112-131 | back undoes the last typed byte or a space; shift twice changes nothing; clear is idempotent |
| `Keyboard.TypeKeyThenDone` | src/TouchUI.cpp:97-135 | touching key (r, c) and then OK returns the held text followed by that key's character |
| `Keyboard.Mask` | src/TouchUI.cpp:62-65 | the masked text is `'*'` repeated once per byte of the value |
| `Keyboard.ShownText` | src/TouchUI.cpp:61-66 | the entry box shows the last min(28, length) bytes of the value, or as many `'*'` when secret |
| `Display.CommaTrim` | src/Display.cpp:151-162 | the result is a prefix of the name; a name of at most 20 bytes or with fewer than two commas is unchanged; otherwise it is cut exactly before the second comma |
| `Display.ShownName` | src/Display.cpp:151-166 | at most 33 bytes; a name of at most 20 bytes is shown unchanged; "..." is added only when the comma-trimmed name exceeds 30 bytes, after its first 30 |
| `Display.LegacyShownName` | src/main.cpp:537-539 | the older screen cuts at 24 bytes plus "...", at most 27 in all |
| `Display.HappyCharacterisation` | src/Display.cpp:177 | happy iff height x 3.28084 >= threshold, equivalently height >= threshold / 3.28084; monotone in the height and anti-monotone in the threshold |
| `Display.HappyMetresIsOneMetreThreshold` | src/main.cpp:549 | the older rule, height >= 1 m (also main.cpp:326), is the new rule with a 3.28084-ft threshold and differs from the new default of 1 ft |
| `Display.ControlButtons` | src/Display.cpp:112-135 | four 68x20 buttons in a 2x2 grid with a 1-pixel gap, rows at y = 2 and 23, the right column ending exactly at the screen width |
| `Display.ControlButtonsDisjoint` | src/Display.cpp:114-134 | the four control buttons are pairwise disjoint |
| `Display.LegacyControlButtons` | src/main.cpp:518-523 | the two older buttons are 102x24, sit at y = 8, 6 pixels apart, the second ending 4 pixels before the right edge |
| `Wizards.WifiSetupStep` | src/TouchUI.cpp:172-195 | finishes iff Connect is touched with a non-empty SSID; the result has that SSID and is valid; a successful save then loads the same credentials; the SSID button sets the SSID to the keyboard's answer and the Password button sets the password to it, each leaving the other fields as they were |
| `Wizards.WifiSetupReturnsUsableCredentials` | src/TouchUI.cpp:186-190 | whatever the touches, the setup returns only valid credentials with a non-empty SSID |
| `Wizards.Shown` | src/TouchUI.cpp:212 | the list shows min(n, 7) rows |
| `Wizards.ListLabel` | src/TouchUI.cpp:214-215 | a row label is at most 38 bytes; a name of at most 35 is shown whole, a longer one as its first 35 bytes followed by "..." |
| `Wizards.ListHit` | src/TouchUI.cpp:232-237 | the row scan returns a shown row, at or after the starting index, that holds the point; it returns nothing iff no such row does |
| `Wizards.ListTouch` | src/TouchUI.cpp:224-246 | a touch selects -1 (Cancel) or a shown row index; an untouched panel decides nothing |
| `Wizards.SelectLocationFromList` | src/TouchUI.cpp:198-248 | an empty list gives -1 at once; otherwise the answer is -1 or an index below min(n, 7) |
| `Wizards.ListRowSelectsItself` | src/TouchUI.cpp:211-237 | a touch on shown row i selects exactly i |
| `Wizards.CancelIsBelowTheRows` | src/TouchUI.cpp:220-243 | a touch on Cancel gives -1 |
| `Wizards.DefaultTouch` | src/TouchUI.cpp:250-287 | 1, 2 or 0 exactly when the first spot, the second spot or Cancel is touched |
| `Wizards.DefaultSpot` | src/TouchUI.cpp:448-462 | choice 1 gives the Mayport Poles spot, choice 2 the Jax Beach Pier spot, any other choice none; both spots are valid and well formed |
| `Wizards.FeetRange` | src/TouchUI.cpp:290 | half-feet 1-20 are 0.5-10 ft, and the start value is 1.0 ft |
| `Wizards.WaveStep` | src/TouchUI.cpp:334-359 | "-" and "+" move by half a foot, clamped to [0.5, 10]; a touch on Save finishes with the current value marked to be stored; a touch on "3 ft" finishes with the current value, not 3 ft, unstored; nothing else finishes |
| `Wizards.WaveScreenStaysInRange` | src/TouchUI.cpp:289-360 | from 1.0 ft, every state and every returned threshold stays in [0.5, 10] ft |
| `Wizards.SkipReturnsCurrentNotThree` | src/TouchUI.cpp:352-354 | "+" then "3 ft" returns 1.5 ft, unsaved |
| `Wizards.CommitWave` | src/TouchUI.cpp:348-355 | the new threshold is the chosen one; when Save chose it and the write succeeds it loads back; otherwise the store is unchanged; only the wave file can change |
| `Wizards.LocationButtonText` | src/TouchUI.cpp:378-379 | "<tap to set>" for an empty text; otherwise at most 41 bytes; a text of at most 38 bytes is shown whole, a longer one as its first 38 bytes followed by "..." |
| `Wizards.LocationSetupStep` | src/TouchUI.cpp:386-468 | zero matches leave the screen unchanged; exactly one match is taken into both the text and the cached location; with several, the match the list picker returns is taken, and a cancelled pick changes nothing; any new state names one of the matches; Save under a non-empty text finishes with the cached location when it is valid and otherwise changes nothing; Default finishes with spot 1 or 2 as the default picker chose, and a cancelled choice changes nothing; Save and Default return only a valid location: the cached one under a non-empty text, or a default spot |
| `Wizards.LocationSetupStepKeeps` | src/TouchUI.cpp:406-424 | each step keeps "a non-empty text names the valid cached location", and what it returns is valid and named |
| `Wizards.SaveNeverRefused` | src/TouchUI.cpp:426-443 | under that invariant, Save with a non-empty text always returns the cached location |
| `Wizards.LocationSetupReturnsNamedLocation` | src/TouchUI.cpp:362-469 | from a fresh screen, any location returned is valid and has a non-empty name |
| `Wizards.DefaultSpotRoundTrip` | src/TouchUI.cpp:448-461 | a saved default spot loads back unchanged |
| `MainScreen.HandleMainScreenTouch` | src/TouchUI.cpp:471-507 | returns 0, 1 or 2; 0 leaves all state as it was; an untouched panel gives 0; code 1 keeps theme and threshold; code 2 keeps location, cached location, connection, credentials and saved location |
| `MainScreen.ButtonsDoTheirJob` | src/TouchUI.cpp:478-505 | forget Wi-Fi gives 1, disconnects and deletes the credentials; forget location gives 1 and clears text, cache and file; theme gives 2 and flips and stores the mode; wave gives 2 and stores exactly what the stepper saved |
| `MainScreen.ThemeButtonTwice` | src/TouchUI.cpp:493-498 | two theme touches restore the theme and the stored mode |
| `LegacyMain.SaveSurfLocationName` | src/main.cpp:180-197 | the older firmware stores the name alone; on success it loads back; failure leaves the store; no other file changes |
| `LegacyMain.LoadSurfLocationName` | src/main.cpp:199-222 | "" when the file is missing, unreadable or unparsable |
| `LegacyMain.LocationFileAcrossVersions` | src/main.cpp:180-222 | the older load reads the name the newer save wrote; a name-only file loads as invalid in the newer firmware, name intact |
| `LegacyMain.ForgetWifi` | src/main.cpp:172-178 | deletes the file and resets the in-memory credentials, leaving the location state alone |
| `LegacyMain.ForgetLocation` | src/main.cpp:224-231 | deletes the file, resets the name to "Huntington Beach, CA" and invalidates the cached location |
| `LegacyMain.EnsureWifiConnected` | src/main.cpp:603-611 | the credentials it ends with are valid with a non-empty SSID and are either the saved ones or the ones entered at setup (the saved ones, with the store untouched, when they are valid and connect; the entered ones when the saved ones do not connect); only the Wi-Fi file can change, and when the store is readable and writable loading it gives back the credentials in use |
| `LegacyMain.LegacyLocationStep` | src/main.cpp:412-433 | a touch on the location button replaces the text with the keyboard's answer; Save with a non-empty text finishes with that text; Default finishes with the default name; the text changes only to the keyboard's answer; Save returns only a non-empty text; the returned name is saved and, on success, loads back |
| `LegacyMain.LegacyLocationButtons` | src/main.cpp:421-428 | Save with an empty text does nothing; Default finishes with the default name whatever the text |
| `LegacyMain.LegacyHandleTouch` | src/main.cpp:583-601 | unhandled touches change nothing; a touch on Forget Wi-Fi deletes the credentials, resets them in memory and disconnects; a touch on Forget Loc runs the location reset; either is reported as handled |
| `LegacyMain.LegacyCycle` | src/main.cpp:630-651 | the cycle always ends connected with a non-empty location name and keeps a connection with valid non-empty credentials so; it reconnects when the radio is down or the link dropped since the last pass, and then ends with valid non-empty credentials, the entered ones when the saved ones do not connect, which a working store holds; a link that stayed up keeps its credentials and, with a name set, the whole store; with a name set only the Wi-Fi file can change; an empty name is replaced by the setup screen's name, which loads back when its save succeeds; it keeps a non-empty name and a valid cached location, and otherwise takes the answers; it retries iff no valid location is at hand; the forecast is shown iff location and forecast are valid |
| `LegacyMain.AfterTouch` | src/main.cpp:653-661 | a handled touch reconnects with valid non-empty credentials, invalidates the cached location, keeps the location name and changes no file but the Wi-Fi file; otherwise nothing changes |
| `LegacyMain.ForgetLocationGeocodesDefault` | src/main.cpp:633-636 | after forget location the next cycle geocodes the default name without opening the location screen |
| `LegacyMain.LoopStep` | src/main.cpp:630-661 | one pass of `loop()`: a retry returns at once with the cycle's state; after a shown forecast an unhandled touch keeps that state and a handled one reconnects and drops the cached location; the pass always ends connected with a non-empty location name and keeps valid non-empty credentials on a live connection |
| `LegacyMain.LoopKeepsConnection` | src/main.cpp:630-661 | over any number of passes of `loop()`, refresh-wait touches included, a connection with valid non-empty credentials is kept; after at least one pass the firmware is connected and has a non-empty location name |
| `LegacyMain.GeocodeRetriesForever` | src/main.cpp:636-641 | any number of failed geocodes leaves the loop running with the same name and no valid location: there is no failure count |
| `LegacyMain.FirstResult` | src/main.cpp:452-483 | no radio or a non-200 status gives the invalid default location |
| `LegacyMain.FirstResultIsFetchLocation` | src/main.cpp:471-482 | taking `results[0]` directly agrees with the newer first-of-all-matches lookup on every reply |
| `SerialMain.Trim` | main.cpp:93 | the trimmed text is the slice of the input that starts right after its leading C white space and is followed only by white space; it neither starts nor ends with white space, and a text already without outer white space is unchanged |
| `SerialMain.TrimIdempotent` | main.cpp:86-87 | trimming twice equals trimming once |
| `SerialMain.Assemble` | main.cpp:79-92 | the assembled line holds no newline and no carriage return; what remains buffered is a suffix of the input |
| `SerialMain.ReadLine` | main.cpp:76-95 | a line read holds no newline or carriage return and has no outer white space; what stays buffered is a suffix of the input |
| `SerialMain.AssembleSplit` | main.cpp:82-89 | for `a` without a newline, reading `a + "\n" + b` gives `a` less its carriage returns and leaves `b`; reading `a` alone gives the same line and leaves nothing |
| `SerialMain.ReadLineSplit` | main.cpp:76-95 | for `a` without a newline, reading `a + "\n" + b` gives the trimmed `a` less its carriage returns and leaves `b` buffered; reading `a` alone gives the same line and leaves nothing |
| `SerialMain.ReadLineFromSerial` | main.cpp:76-95 | the character loop computes exactly the reference line and remainder |
| `SerialMain.EffectiveCredentials` | main.cpp:114-116 | the radio always gets a non-empty SSID and password: the entered ones, or the compiled-in ones when empty |
| `SerialMain.BootPrompt` | main.cpp:392-398 | at boot, typed lines are used and blank ones fall back to the compiled-in credentials |
| `SerialMain.ConnectWait` | main.cpp:121-134 | connected iff one of the first 60 status checks succeeds, stopping at the first; failure makes exactly 60 checks |
| `SerialMain.SerialFetchLocation` | main.cpp:159-228 | no radio, a non-200 status, an empty payload or a parse failure gives the invalid default; a valid result has the composed name and the coordinates of `results[0]` |
| `SerialMain.SerialFetchLocationAgrees` | main.cpp:190-203 | since an empty payload never parses, the empty-body guard changes nothing: the lookup agrees with the newer `fetchLocation` |

## Left out

- HTTP, Wi-Fi radio control, JSON parsing and the flash filesystem are foreign
  libraries. Their outcomes are inputs: a status code and a parsed document, a
  per-poll connection flag, a file map with read and write outcome flags.
- Drawing is left out: buttons, status screens, the sun and cloud graphics (trig
  and `sqrt`), text sizes and cursor positions. Only the string and layout
  decisions are modelled.
- Timing is left out: the `while (touch.touched())` debounce waits, `delay`,
  `millis`, the refresh interval and the serial read timeout. A touch sequence is
  the input of a screen; the characters that arrive before the timeout are the
  input of a serial read.
- Logging over the serial port (`logInfo`, `logError`, the touch debug print) is
  left out; it has no effect on state.
- URL construction (host, `count`, language, `String(latitude, 4)`) is left
  out. Only the encoded name is modelled, and the coordinate formatting is float
  printing.
- IEEE `float` is replaced by `real`. This covers the 3.28084 conversion, the
  0.5-ft steps and JSON number round-trips, which the model treats as exact.
- `Display.CommaTrim`, `Display.ShownName`, `Display.LegacyShownName`: the
  limits count bytes, not the characters a reader sees. A cut can split a
  multi-byte UTF-8 character, as in the firmware; how the display then draws
  the broken byte sequence is not modelled.
- `Wizards.ListLabel`, `Wizards.LocationButtonText`: the same byte counting
  and the same unmodelled drawing of a split character.
- `Keyboard.Edit`: back removes the last byte, so on a geocoded name handed to
  the keyboard it can leave part of a multi-byte character. Nothing is promised
  about characters as a reader sees them.
- `Keyboard.ShownText`, `Keyboard.Mask`: the entry box and the mask count
  bytes, so a multi-byte character shows as several `'*'` or can be cut.
- `Storage.WriteDocument`: a write that fails after `FILE_WRITE` has opened, and
  so truncated, the file is modelled as leaving the old document in place. The
  firmware would leave an empty file, which then loads as its default.
- `Network.ConnectWifi`: the 500 ms spacing of the polls is not modelled; only
  their number is.
- `Network.FetchLocationMatches`: the elements of `results` are taken to be
  JSON objects. A non-object element is not modelled.
- `Geometry.TouchAxis`: the screen's width and height are parameters; their
  `int16_t` type is not modelled.
- `Display.ControlButtons`: the `int16_t` narrowing of the rect fields is not
  modelled, since the screen is 480 pixels wide and every value fits.
- `Keyboard.RowLayout`: the layout uses the fixed 480-pixel screen width; the
  `int16_t` casts in the rects cannot wrap at that size.
- `LegacyMain.LegacyCycle`: `ensureWifiConnected` retries setup until a
  connection succeeds, which may never happen. The model receives the outcome of
  the round that finally connects.
- `LegacyMain.EnsureWifiConnected`: its repeated setup rounds are taken as one
  answer, for the same reason. That answer is one the setup screen can give, a
  non-empty SSID (`LegacyMain.SetupAnswer`).
- `LegacyMain.LegacyLoop`: an answer the screens cannot give (an empty SSID from
  Wi-Fi setup, an empty name from location setup) leaves the loop state
  unchanged instead of being modelled.
- Screens that never return are represented by runs of finite input sequences
  (`Run`). Non-termination is the run staying at `Continue`.
- The modular `setup()`/`loop()` and the oldest firmware's `loop()` are not
  modelled beyond their parts. They are orchestration over the screens,
  services and store modelled here. The older `loop()` is modelled as
  `LegacyMain.LoopStep`: `LegacyMain.LegacyCycle`, then the refresh wait with one
  deciding touch, since touches that hit no button change nothing and the first
  that does ends the wait.
- The display of the detail line, such as period, direction and `timeLabel`
  substring, is formatting of floats and is left out.
- `setupDisplay`'s diagnostic colour cycle and the backlight pin are hardware
  initialisation.

=== FILE: common.dfy ===
/** Small shared vocabulary: optional values, the outcome of one step of a
    blocking screen, and the two Arduino `String` operations the firmware's
    display logic relies on (`indexOf` and `substring(0, n) + "..."`).

    An Arduino `String` is a byte string, and the firmware's `length()`,
    `substring` and `remove` count bytes. Throughout the model a `string`
    stands for those bytes, one element per byte: a character that UTF-8
    writes as several bytes (a geocoded "é", say) is several elements, so every
    length test and cut here falls where the firmware's does, even inside such a
    character. */
module Common {

  /** A value that may be absent (a missing JSON key, an untouched screen). */
  datatype Option<+T> = None | Some(value: T)

  /** One step of a blocking screen loop: either the screen keeps running with a
      new state, or the function that drives it returns `result`. */
  datatype Step<+S, +R> = Continue(state: S) | Done(result: R)

  /** `s.indexOf(c, from)` of Arduino's `String`: the first position at or after
      `from` that holds `c`, or -1 when there is none. */
  function IndexOf(s: string, c: char, from: nat): (r: int)
    ensures r == -1 || (from <= r < |s| && s[r] == c)
    ensures r == -1 ==> forall i :: from <= i < |s| ==> s[i] != c
    ensures r >= 0 ==> forall i :: from <= i < r ==> s[i] != c
    decreases |s| - from
  {
    if from >= |s| then -1
    else if s[from] == c then from
    else IndexOf(s, c, from + 1)
  }

  /** `s.substring(0, limit) + "..."` when `s` is longer than `limit`, otherwise `s`. */
  function Abbreviate(s: string, limit: nat): (r: string)
    ensures |r| <= limit + 3
    ensures |s| <= limit ==> r == s
    ensures |s| > limit ==> |r| == limit + 3 && r[..limit] == s[..limit] && r[limit..] == "..."
  {
    if |s| > limit then s[..limit] + "..." else s
  }

  /** Feed `inputs` to a screen, one step each, until it finishes (`Done`) or the
      inputs run out (`Continue` with the state reached). */
  function Run<S, I, R>(step: (S, I) -> Step<S, R>, s: S, inputs: seq<I>): (r: Step<S, R>)
    ensures inputs == [] ==> r == Continue(s)
    ensures |inputs| == 1 ==> r == step(s, inputs[0])
    decreases |inputs|
  {
    if inputs == [] then Continue(s)
    else match step(s, inputs[0])
         case Done(res) => Done(res)
         case Continue(next) => Run(step, next, inputs[1..])
  }

  /** Feeding inputs in two batches is feeding them at once. */
  lemma {:induction false} RunAppend<S, I, R>(step: (S, I) -> Step<S, R>, s: S, a: seq<I>, b: seq<I>)
    ensures Run(step, s, a + b) ==
            match Run(step, s, a)
            case Done(res) => Done(res)
            case Continue(next) => Run(step, next, b)
    decreases |a|
  {
    if a == [] {
      assert a + b == b;
    } else {
      assert (a + b)[0] == a[0] && (a + b)[1..] == a[1..] + b;
      match step(s, a[0])
      case Done(_) =>
      case Continue(next) => RunAppend(step, next, a[1..], b);
    }
  }

  /** One step from a state satisfying `inv`, on an input satisfying `ok`, either
      continues in a state satisfying `inv` or finishes with a result satisfying
      `post`. */
  ghost predicate Keeps<S(!new), I(!new), R>(step: (S, I) -> Step<S, R>, ok: I -> bool, inv: S -> bool, post: R -> bool)
  {
    forall t: S, i: I | inv(t) && ok(i) ::
      match step(t, i)
      case Continue(next) => inv(next)
      case Done(res) => post(res)
  }

  /** A step invariant holds for a whole run. */
  lemma {:induction false} RunKeeps<S(!new), I(!new), R>(step: (S, I) -> Step<S, R>, ok: I -> bool, inv: S -> bool,
                                             post: R -> bool, s: S, inputs: seq<I>)
    requires Keeps(step, ok, inv, post)
    requires inv(s)
    requires forall k :: 0 <= k < |inputs| ==> ok(inputs[k])
    ensures match Run(step, s, inputs)
            case Continue(t) => inv(t)
            case Done(res) => post(res)
    decreases |inputs|
  {
    if inputs != [] {
      assert ok(inputs[0]);
      match step(s, inputs[0])
      case Done(_) =>
      case Continue(next) =>
        RunKeeps(step, ok, inv, post, next, inputs[1..]);
    }
  }
}

=== FILE: display.dfy ===
/** The decisions `drawForecast` and `drawForgetButton` make (src/Display.cpp;
    the older copies in src/main.cpp and main.cpp): how the spot name is
    shortened, whether the surf is "happy", and where the four control buttons
    are. Drawing itself is not modelled. Names are byte strings, as everywhere
    in the model, so the 20-, 24- and 30-element limits are the firmware's byte
    limits. */
module Display {
  import opened Common
  import opened Geometry

  // ---------------------------------------------------------------- spot name

  /** Number of commas in `s`. */
  function Commas(s: string): nat
  {
    if s == [] then 0 else Commas(s[..|s| - 1]) + (if s[|s| - 1] == ',' then 1 else 0)
  }

  lemma {:induction false} CommasStep(s: string, k: nat)
    requires k < |s|
    ensures Commas(s[..k + 1]) == Commas(s[..k]) + (if s[k] == ',' then 1 else 0)
  {
    assert s[..k + 1][..k] == s[..k];
  }

  /** A stretch without commas adds none. */
  lemma {:induction false} CommasAcrossGap(s: string, a: nat, b: nat)
    requires a <= b <= |s|
    requires forall i :: a <= i < b ==> s[i] != ','
    ensures Commas(s[..b]) == Commas(s[..a])
    decreases b - a
  {
    if a < b {
      CommasAcrossGap(s, a, b - 1);
      CommasStep(s, b - 1);
    }
  }

  /** A prefix has no more commas than the whole. */
  lemma {:induction false} CommasOfPrefix(s: string, k: nat)
    requires k <= |s|
    ensures Commas(s[..k]) <= Commas(s)
    decreases |s| - k
  {
    if k < |s| {
      CommasStep(s, k);
      CommasOfPrefix(s, k + 1);
    } else {
      assert s[..k] == s;
    }
  }

  /** For a name longer than 20 characters with two commas, the text before the
      second comma; any other name unchanged. */
  function CommaTrim(name: string): (r: string)
    ensures |r| <= |name| && r == name[..|r|]
    ensures |name| <= 20 || Commas(name) < 2 ==> r == name
    ensures |name| > 20 && Commas(name) >= 2 ==>
              |r| < |name| && r == name[..|r|] && name[|r|] == ',' && Commas(r) == 1
  {
    if |name| <= 20 then name
    else
      var first := IndexOf(name, ',', 0);
      if first < 0 then
        CommasAcrossGap(name, 0, |name|);
        assert name[..|name|] == name;
        name
      else
        CommasAcrossGap(name, 0, first);
        CommasStep(name, first);
        var second := IndexOf(name, ',', first + 1);
        CommasAcrossGap(name, first + 1, if second < 0 then |name| else second);
        assert name[..|name|] == name;
        if second < 0 then name
        else
          CommasStep(name, second);
          CommasOfPrefix(name, second + 1);
          assert name[..second][..second] == name[..second];
          name[..second]
  }

  /** The name `drawForecast` prints: comma-trimmed, then cut to 30 characters
      plus "..." when still longer than 30. */
  function ShownName(name: string): (r: string)
    ensures |r| <= 33
    ensures |name| <= 20 ==> r == name
    ensures |CommaTrim(name)| <= 30 ==> r == CommaTrim(name)
    ensures |CommaTrim(name)| > 30 ==> |r| == 33 && r[..30] == name[..30] && r[30..] == "..."
  {
    Abbreviate(CommaTrim(name), 30)
  }

  /** The older firmware (src/main.cpp) only cuts at 24 characters. */
  function LegacyShownName(name: string): (r: string)
    ensures |r| <= 27
    ensures |name| <= 24 ==> r == name
    ensures |name| > 24 ==> |r| == 27 && r[..24] == name[..24] && r[24..] == "..."
  {
    Abbreviate(name, 24)
  }

  // ---------------------------------------------------------------- happy / sad

  /** The firmware's metre-to-foot factor. */
  const FeetPerMetre: real := 3.28084

  /** Happy when the wave height, in feet, reaches the user's threshold (feet). */
  predicate Happy(waveHeightMetres: real, thresholdFeet: real)
  {
    waveHeightMetres * FeetPerMetre >= thresholdFeet
  }

  /** Equivalently: the height in metres reaches the threshold converted to metres;
      hence happiness is monotone in the height and anti-monotone in the threshold. */
  lemma HappyCharacterisation(h: real, t: real, h2: real, t2: real)
    ensures Happy(h, t) <==> h >= t / FeetPerMetre
    ensures Happy(h, t) && h <= h2 ==> Happy(h2, t)
    ensures Happy(h, t) && t2 <= t ==> Happy(h, t2)
  {
  }

  /** The older firmware is happy from one metre on; that is the new rule with a
      threshold of one metre expressed in feet, not the default of 1 foot. */
  predicate HappyMetres(waveHeightMetres: real)
  {
    waveHeightMetres >= 1.0
  }

  lemma HappyMetresIsOneMetreThreshold(h: real)
    ensures HappyMetres(h) <==> Happy(h, FeetPerMetre)
    ensures Happy(0.5, 1.0) && !HappyMetres(0.5)
  {
  }

  // ---------------------------------------------------------------- control buttons

  /** The four control buttons of the forecast screen. */
  datatype ControlLayout = ControlLayout(forgetWifi: Rect, theme: Rect, forgetLocation: Rect, wave: Rect)

  /** `drawForgetButton`: a 2x2 grid of 68x20 buttons with a 1-pixel gap in the
      top-right corner, starting at y = 2. */
  function ControlButtons(width: int): (l: ControlLayout)
    ensures l.forgetWifi.w == l.theme.w == l.forgetLocation.w == l.wave.w == 68
    ensures l.forgetWifi.h == l.theme.h == l.forgetLocation.h == l.wave.h == 20
    ensures l.forgetWifi.x == l.forgetLocation.x && l.theme.x == l.wave.x == l.forgetWifi.x + 69
    ensures l.forgetWifi.y == l.theme.y == 2 && l.forgetLocation.y == l.wave.y == 23
    ensures l.theme.x + l.theme.w == width && l.wave.x + l.wave.w == width
  {
    var btnW, btnH, gap := 68, 20, 1;
    var startX := width - (btnW * 2 + gap);
    var startY := 2;
    ControlLayout(Rect(startX, startY, btnW, btnH),
                  Rect(startX + btnW + gap, startY, btnW, btnH),
                  Rect(startX, startY + btnH + gap, btnW, btnH),
                  Rect(startX + btnW + gap, startY + btnH + gap, btnW, btnH))
  }

  /** No touch can hit two control buttons. */
  lemma ControlButtonsDisjoint(width: int)
    ensures var l := ControlButtons(width);
            Disjoint(l.forgetWifi, l.theme) && Disjoint(l.forgetWifi, l.forgetLocation)
            && Disjoint(l.forgetWifi, l.wave) && Disjoint(l.theme, l.forgetLocation)
            && Disjoint(l.theme, l.wave) && Disjoint(l.forgetLocation, l.wave)
  {
    var l := ControlButtons(width);
    SeparatedAreDisjoint(l.forgetWifi, l.theme);
    SeparatedAreDisjoint(l.forgetWifi, l.forgetLocation);
    SeparatedAreDisjoint(l.forgetWifi, l.wave);
    SeparatedAreDisjoint(l.theme, l.forgetLocation);
    SeparatedAreDisjoint(l.theme, l.wave);
    SeparatedAreDisjoint(l.forgetLocation, l.wave);
  }

  /** The older firmware's two buttons: forget Wi-Fi and forget location. */
  datatype LegacyControlLayout = LegacyControlLayout(forgetWifi: Rect, forgetLocation: Rect)

  function LegacyControlButtons(width: int): (l: LegacyControlLayout)
    ensures l.forgetLocation.x + l.forgetLocation.w == width - 4
    ensures l.forgetWifi.x + l.forgetWifi.w + 6 == l.forgetLocation.x
    ensures l.forgetWifi.y == l.forgetLocation.y == 8
    ensures l.forgetWifi.w == l.forgetLocation.w == 102 && l.forgetWifi.h == l.forgetLocation.h == 24
  {
    LegacyControlLayout(Rect(width - 214, 8, 102, 24), Rect(width - 106, 8, 102, 24))
  }
}

=== FILE: geometry.dfy ===
/** Touch geometry: hit rectangles, the half-open hit test, and the mapping of
    raw resistive-panel readings to screen pixels (src/TouchUI.cpp, src/main.cpp). */
module Geometry {
  import opened Common

  /** The panel is a 320x480 ST7796 driven in rotation 1, so the firmware sees a
      480-pixel wide, 320-pixel high screen. */
  const ScreenWidth: int := 480
  const ScreenHeight: int := 320

  /** Touch calibration of the CYD panel (raw controller units). */
  const TouchMinX: int := 240
  const TouchMaxX: int := 3860
  const TouchMinY: int := 280
  const TouchMaxY: int := 3860

  /** A UI hit region; recomputed on every draw, never persisted. */
  datatype Rect = Rect(x: int, y: int, w: int, h: int)

  /** A screen position reported by the touch layer. */
  datatype Point = Point(x: int, y: int)

  /** `TouchPoint` of the firmware: (-1, -1, not pressed) when nothing touches the panel. */
  datatype TouchPoint = TouchPoint(x: int, y: int, pressed: bool)

  const Untouched: TouchPoint := TouchPoint(-1, -1, false)

  /** `pointInRect`: x in [r.x, r.x + r.w) and y in [r.y, r.y + r.h). */
  predicate PointInRect(x: int, y: int, r: Rect)
  {
    x >= r.x && y >= r.y && x < r.x + r.w && y < r.y + r.h
  }

  predicate Hits(p: Point, r: Rect)
  {
    PointInRect(p.x, p.y, r)
  }

  /** No point is inside both rectangles. */
  ghost predicate Disjoint(a: Rect, b: Rect)
  {
    forall x: int, y: int :: !(PointInRect(x, y, a) && PointInRect(x, y, b))
  }

  /** Two rectangles separated along one axis share no point. */
  lemma SeparatedAreDisjoint(a: Rect, b: Rect)
    requires a.x + a.w <= b.x || b.x + b.w <= a.x || a.y + a.h <= b.y || b.y + b.h <= a.y
    ensures Disjoint(a, b) && Disjoint(b, a)
  {
  }

  /** The hit test is half-open: the top-left corner of a non-empty rectangle is
      inside, the column just right of it and the row just below it are outside. */
  lemma PointInRectHalfOpen(r: Rect, x: int, y: int)
    ensures r.w > 0 && r.h > 0 ==> PointInRect(r.x, r.y, r)
    ensures !PointInRect(r.x + r.w, y, r)
    ensures !PointInRect(x, r.y + r.h, r)
    ensures r.w <= 0 || r.h <= 0 ==> !PointInRect(x, y, r)
  {
  }

  /** C integer division (truncation toward zero) by a positive divisor. Dafny's
      `/` is Euclidean and differs for a negative dividend. */
  function TruncDiv(n: int, d: int): (q: int)
    requires d > 0
    ensures n >= 0 ==> 0 <= n - q * d < d
    ensures n < 0 ==> -d < n - q * d <= 0
  {
    if n >= 0 then n / d else -((-n) / d)
  }

  /** Arduino `map(x, inMin, inMax, outMin, outMax)` computed in `long`, with C's
      truncating division. The firmware only calls it with an increasing input range. */
  function ArduinoMap(x: int, inMin: int, inMax: int, outMin: int, outMax: int): (r: int)
    requires inMin < inMax
    ensures x == inMin ==> r == outMin
  {
    TruncDiv((x - inMin) * (outMax - outMin), inMax - inMin) + outMin
  }

  /** The implicit conversion of a `long` to `int16_t` (two's-complement wrap). */
  function ToInt16(v: int): (r: int)
    ensures -0x8000 <= r < 0x8000
    ensures (r - v) % 0x1_0000 == 0
    ensures -0x8000 <= v < 0x8000 ==> r == v
  {
    (v + 0x8000) % 0x1_0000 - 0x8000
  }

  /** Arduino `constrain(v, lo, hi)`. */
  function Constrain(v: int, lo: int, hi: int): (r: int)
    ensures lo <= hi ==> lo <= r <= hi
    ensures lo <= v <= hi ==> r == v
    ensures v < lo ==> r == lo
    ensures lo <= hi && v > hi ==> r == hi
  {
    if v < lo then lo else if v > hi then hi else v
  }

  /** Orientation of the calibration map: the modular firmware maps the raw range
      onto [extent, 0] (both axes inverted), the older one onto [0, extent]. */
  datatype Orientation = Inverted | Direct

  /** One axis of `getTouchPoint`: map, store into `int16_t`, clamp to the screen. */
  function TouchAxis(raw: int, rawMin: int, rawMax: int, extent: int, o: Orientation): (p: int)
    requires rawMin < rawMax
    requires extent >= 1
    ensures 0 <= p <= extent - 1
  {
    var mapped := if o.Inverted? then ArduinoMap(raw, rawMin, rawMax, extent, 0)
                  else ArduinoMap(raw, rawMin, rawMax, 0, extent);
    Constrain(ToInt16(mapped), 0, extent - 1)
  }

  /** `getTouchPoint`: `None` stands for "the controller reports no touch". */
  function GetTouchPoint(raw: Option<Point>, width: int, height: int, o: Orientation): (p: TouchPoint)
    requires width >= 1 && height >= 1
    ensures p.pressed <==> raw.Some?
    ensures !p.pressed ==> p == Untouched
    ensures p.pressed ==> 0 <= p.x <= width - 1 && 0 <= p.y <= height - 1
  {
    match raw
    case None => Untouched
    case Some(r) =>
      TouchPoint(TouchAxis(r.x, TouchMinX, TouchMaxX, width, o),
                 TouchAxis(r.y, TouchMinY, TouchMaxY, height, o), true)
  }

  /** For every 16-bit raw reading on the 480-pixel axis the mapped value fits in
      `int16_t`, so no wrap happens; the inverted map is monotonically decreasing
      and sends the calibration ends to the far screen edges. */
  lemma InvertedAxisMonotone(raw1: int, raw2: int)
    requires -0x8000 <= raw1 <= raw2 < 0x8000
    ensures TouchAxis(raw1, TouchMinX, TouchMaxX, ScreenWidth, Inverted)
            >= TouchAxis(raw2, TouchMinX, TouchMaxX, ScreenWidth, Inverted)
  {
    var m1, m2 := ArduinoMap(raw1, TouchMinX, TouchMaxX, ScreenWidth, 0),
                  ArduinoMap(raw2, TouchMinX, TouchMaxX, ScreenWidth, 0);
    assert -0x8000 <= m2 <= m1 < 0x8000;
  }

  lemma InvertedAxisLeftEnd()
    ensures TouchAxis(TouchMinX, TouchMinX, TouchMaxX, ScreenWidth, Inverted) == ScreenWidth - 1
  {
  }

  lemma InvertedAxisRightEnd()
    ensures TouchAxis(TouchMaxX, TouchMinX, TouchMaxX, ScreenWidth, Inverted) == 0
  {
  }
}

=== FILE: keyboard.dfy ===
/** The on-screen keyboard `touchKeyboardInput` (src/TouchUI.cpp and the older
    uppercase-only copy in src/main.cpp): the key grid, the hit scan, the edit
    rules of one touch, and the text shown in the entry box. The value is a
    byte string, as everywhere in the model: back removes its last byte, and
    the entry box shows its last 28 bytes. */
module Keyboard {
  import opened Common
  import opened Geometry

  /** The modular keyboard has a shift key; the older one is uppercase only and
      places its four special keys differently. */
  datatype Variant = Modular | Legacy

  const UpperRows: seq<string> := ["1234567890", "QWERTYUIOP", "ASDFGHJKL", "ZXCVBNM@._-"]
  const LowerRows: seq<string> := ["1234567890", "qwertyuiop", "asdfghjkl", "zxcvbnm@._-"]

  /** Capacity of the `keyRects` / `keyLabels` arrays. */
  const KeySlots: int := 44

  /** The rows drawn: the modular keyboard follows `shiftOn`, the older one is
      always uppercase. */
  function ActiveRows(v: Variant, shiftOn: bool): seq<string>
  {
    if v.Legacy? || shiftOn then UpperRows else LowerRows
  }

  /** Rows the layout arithmetic handles: non-empty and short enough that every
      key has a non-negative width on a 480-pixel screen. */
  predicate ValidRows(rows: seq<string>)
  {
    forall r :: 0 <= r < |rows| ==> 1 <= |rows[r]| <= 16
  }

  /** `(width - 16 - (len - 1) * 2) / len`: equal keys with 2-pixel gaps and
      8-pixel margins. */
  function KeyWidth(len: int): (w: int)
    requires 1 <= len <= 16
    ensures w >= 0
  {
    TruncDiv(ScreenWidth - 16 - (len - 1) * 2, len)
  }

  lemma KeyWidthsOfTheRows()
    ensures [KeyWidth(10), KeyWidth(9), KeyWidth(11)] == [44, 49, 40]
  {
  }

  datatype Key = Key(rect: Rect, caption: string)

  /** Key `c` of row `r`: x = 8 + c * (keyW + 2), y = 66 + 28 * r, keyW by 24. */
  function KeyRect(r: nat, c: nat, len: int): Rect
    requires 1 <= len <= 16
  {
    var w := KeyWidth(len);
    Rect(8 + c * (w + 2), 66 + 28 * r, w, 24)
  }

  /** The keys of row `r`, left to right, each labelled with its one character. */
  function RowKeys(row: string, r: nat): (ks: seq<Key>)
    requires 1 <= |row| <= 16
    ensures |ks| == |row|
    ensures forall c :: 0 <= c < |row| ==> ks[c] == Key(KeyRect(r, c, |row|), [row[c]])
  {
    seq(|row|, c requires 0 <= c < |row| => Key(KeyRect(r, c, |row|), [row[c]]))
  }

  /** How a row sits on the screen: the first key starts at the 8-pixel margin,
      each key ends 2 pixels before the next begins, the last one ends inside the
      right margin, and the whole row shares one 24-pixel band at y = 66 + 28 r. */
  lemma RowLayout(row: string, r: nat)
    requires 1 <= |row| <= 16
    ensures var ks := RowKeys(row, r);
            ks[0].rect.x == 8
            && (forall c :: 0 <= c < |row| - 1 ==> ks[c].rect.x + ks[c].rect.w + 2 == ks[c + 1].rect.x)
            && ks[|row| - 1].rect.x + ks[|row| - 1].rect.w <= ScreenWidth - 8
            && (forall c :: 0 <= c < |row| ==> ks[c].rect.y == 66 + 28 * r && ks[c].rect.h == 24)
  {
    var n, w := |row|, KeyWidth(|row|);
    var ks := RowKeys(row, r);
    forall c | 0 <= c < n - 1
      ensures ks[c].rect.x + ks[c].rect.w + 2 == ks[c + 1].rect.x
    {
      assert (c + 1) * (w + 2) == c * (w + 2) + (w + 2);
    }
    assert (n - 1) * (w + 2) + w == w * n + 2 * (n - 1);
    assert w * n <= ScreenWidth - 16 - (n - 1) * 2;
  }

  /** The key grid, row by row, in the order the firmware fills its arrays. */
  function KeyGrid(rows: seq<string>): (g: seq<seq<Key>>)
    requires ValidRows(rows)
    ensures |g| == |rows|
    ensures forall r :: 0 <= r < |rows| ==> g[r] == RowKeys(rows[r], r)
  {
    seq(|rows|, r requires 0 <= r < |rows| => RowKeys(rows[r], r))
  }

  function KeyCount(rows: seq<string>): nat
  {
    if rows == [] then 0 else |rows[0]| + KeyCount(rows[1..])
  }

  /** Both layouts have 10 + 10 + 9 + 11 = 40 keys, within the 44 slots. */
  lemma KeysFitTheArrays(v: Variant, shiftOn: bool)
    ensures ValidRows(ActiveRows(v, shiftOn))
    ensures KeyCount(ActiveRows(v, shiftOn)) == 40 <= KeySlots
  {
    var rows := ActiveRows(v, shiftOn);
    assert rows[1..][1..][1..][1..] == [];
  }

  /** c1 < c2 keys apart are at least one pitch apart. */
  lemma {:induction false} PitchMonotone(c1: int, c2: int, k: int)
    requires 0 <= c1 < c2 && k >= 0
    ensures c1 * k + k <= c2 * k
    decreases c2 - c1
  {
    if c2 == c1 + 1 {
      assert c2 * k == c1 * k + k;
    } else {
      PitchMonotone(c1, c2 - 1, k);
      assert c2 * k == (c2 - 1) * k + k;
    }
  }

  /** Any two different keys of the grid are disjoint: keys of a row are 2 pixels
      apart, rows are 28 pixels apart and 24 high. */
  lemma KeysDisjoint(rows: seq<string>, r1: nat, c1: nat, r2: nat, c2: nat)
    requires ValidRows(rows)
    requires r1 < |rows| && c1 < |rows[r1]| && r2 < |rows| && c2 < |rows[r2]|
    requires (r1, c1) != (r2, c2)
    ensures Disjoint(KeyGrid(rows)[r1][c1].rect, KeyGrid(rows)[r2][c2].rect)
  {
    var a, b := KeyGrid(rows)[r1][c1].rect, KeyGrid(rows)[r2][c2].rect;
    if r1 != r2 {
      SeparatedAreDisjoint(a, b);
    } else {
      var w := KeyWidth(|rows[r1]|);
      if c1 < c2 {
        PitchMonotone(c1, c2, w + 2);
      } else {
        PitchMonotone(c2, c1, w + 2);
      }
      SeparatedAreDisjoint(a, b);
    }
  }

  /** The first key of `row`, from column `c` on, that holds the point. */
  function HitInRow(row: seq<Key>, x: int, y: int, c: nat): (l: Option<string>)
    ensures l.None? <==> forall j :: c <= j < |row| ==> !PointInRect(x, y, row[j].rect)
    decreases |row| - c
  {
    if c >= |row| then None
    else if PointInRect(x, y, row[c].rect) then Some(row[c].caption)
    else HitInRow(row, x, y, c + 1)
  }

  /** The key loop of the firmware: the first key in row-major order that holds
      the point, from row `r` on. */
  function HitKey(grid: seq<seq<Key>>, x: int, y: int, r: nat): (l: Option<string>)
    ensures l.None? <==> forall i, j :: r <= i < |grid| && 0 <= j < |grid[i]| ==> !PointInRect(x, y, grid[i][j].rect)
    decreases |grid| - r
  {
    if r >= |grid| then None
    else match HitInRow(grid[r], x, y, 0)
         case Some(l) => Some(l)
         case None => HitKey(grid, x, y, r + 1)
  }

  lemma {:induction false} HitInRowFinds(row: seq<Key>, x: int, y: int, c0: nat, c: nat)
    requires c0 <= c < |row| && PointInRect(x, y, row[c].rect)
    requires forall j :: c0 <= j < |row| && j != c ==> !PointInRect(x, y, row[j].rect)
    ensures HitInRow(row, x, y, c0) == Some(row[c].caption)
    decreases c - c0
  {
    if c0 < c {
      HitInRowFinds(row, x, y, c0 + 1, c);
    }
  }

  lemma {:induction false} HitKeyFinds(grid: seq<seq<Key>>, x: int, y: int, r0: nat, r: nat, c: nat)
    requires r0 <= r < |grid| && c < |grid[r]| && PointInRect(x, y, grid[r][c].rect)
    requires forall i, j :: r0 <= i < |grid| && 0 <= j < |grid[i]| && (i, j) != (r, c)
                            ==> !PointInRect(x, y, grid[i][j].rect)
    ensures HitKey(grid, x, y, r0) == Some(grid[r][c].caption)
    decreases r - r0
  {
    if r0 < r {
      assert HitInRow(grid[r0], x, y, 0).None?;
      HitKeyFinds(grid, x, y, r0 + 1, r, c);
    } else {
      HitInRowFinds(grid[r], x, y, 0, c);
    }
  }

  /** A touch inside key (r, c) types exactly that key's character. */
  lemma KeyTouchTypesItsLabel(rows: seq<string>, r: nat, c: nat, x: int, y: int)
    requires ValidRows(rows) && r < |rows| && c < |rows[r]|
    requires PointInRect(x, y, KeyGrid(rows)[r][c].rect)
    ensures HitKey(KeyGrid(rows), x, y, 0) == Some([rows[r][c]])
  {
    var g: seq<seq<Key>> := KeyGrid(rows);
    forall i: int, j: int | 0 <= i < |g| && 0 <= j < |g[i]| && (i, j) != (r, c)
      ensures !PointInRect(x, y, g[i][j].rect)
    {
      KeysDisjoint(rows, r, c, i, j);
    }
    HitKeyFinds(g, x, y, 0, r, c);
  }

  // ---------------------------------------------------------------- special keys

  /** The special keys of each variant; the older keyboard has no shift key. */
  function ShiftRect(v: Variant): Option<Rect>
  {
    if v.Modular? then Some(Rect(8, 180, 60, 26)) else None
  }

  function BackRect(v: Variant): Rect
  {
    if v.Modular? then Rect(74, 180, 60, 26) else Rect(8, 180, 74, 26)
  }

  function ClearRect(v: Variant): Rect
  {
    if v.Modular? then Rect(140, 180, 60, 26) else Rect(88, 180, 74, 26)
  }

  function SpaceRect(v: Variant): Rect
  {
    if v.Modular? then Rect(206, 180, 60, 26) else Rect(168, 180, 74, 26)
  }

  function DoneRect(v: Variant): Rect
  {
    if v.Modular? then Rect(272, 180, 40, 26) else Rect(248, 180, 64, 26)
  }

  /** What a touch at (x, y) selects, in the firmware's order of tests. */
  datatype Target = TypeKey(text: string) | ShiftKey | BackKey | ClearKey | SpaceKey | DoneKey | NoKey

  function TargetAt(v: Variant, shiftOn: bool, x: int, y: int): Target
  {
    var rows := ActiveRows(v, shiftOn);
    KeysFitTheArrays(v, shiftOn);
    match HitKey(KeyGrid(rows), x, y, 0)
    case Some(l) => TypeKey(l)
    case None =>
      if ShiftRect(v).Some? && PointInRect(x, y, ShiftRect(v).value) then ShiftKey
      else if PointInRect(x, y, BackRect(v)) then BackKey
      else if PointInRect(x, y, ClearRect(v)) then ClearKey
      else if PointInRect(x, y, SpaceRect(v)) then SpaceKey
      else if PointInRect(x, y, DoneRect(v)) then DoneKey
      else NoKey
  }

  /** The special keys lie below the last key row (which ends at y = 174), so a
      touch on one of them reaches its own test. */
  lemma SpecialKeysBelowGrid(v: Variant, shiftOn: bool, x: int, y: int)
    requires y >= 180
    ensures HitKey(KeyGrid(ActiveRows(v, shiftOn)), x, y, 0).None?
  {
    KeysFitTheArrays(v, shiftOn);
  }

  /** A touch on OK finishes the keyboard, whatever the variant. */
  lemma DoneKeyReachable(v: Variant, shiftOn: bool, x: int, y: int)
    requires PointInRect(x, y, DoneRect(v))
    ensures TargetAt(v, shiftOn, x, y) == DoneKey
  {
    SpecialKeysBelowGrid(v, shiftOn, x, y);
  }

  // ---------------------------------------------------------------- edit rules

  datatype KeyboardState = KeyboardState(value: string, shiftOn: bool)

  /** The effect of one selected target. A key appends its label, shift flips the
      case mode, back deletes the last character of a non-empty value, clear
      empties it, space appends " ", OK returns the value. */
  function Edit(s: KeyboardState, t: Target): (r: Step<KeyboardState, string>)
    ensures r.Done? <==> t == DoneKey
    ensures r.Done? ==> r.result == s.value
    ensures r.Continue? ==> r.state.shiftOn == (s.shiftOn != (t == ShiftKey))
    ensures r.Continue? && t != ClearKey ==> |r.state.value| <= |s.value| + |if t.TypeKey? then t.text else " "|
    ensures t.TypeKey? ==> r.Continue? && |r.state.value| == |s.value| + |t.text|
                           && r.state.value[..|s.value|] == s.value && r.state.value[|s.value|..] == t.text
    ensures t == BackKey && s.value != "" ==> r.Continue? && r.state.value + [s.value[|s.value| - 1]] == s.value
    ensures t == NoKey || t == ShiftKey || (t == BackKey && s.value == "") ==> r.Continue? && r.state.value == s.value
    ensures t == ClearKey ==> r == Continue(s.(value := ""))
    ensures t == SpaceKey ==> r == Continue(s.(value := s.value + " "))
  {
    match t
    case TypeKey(l) => Continue(s.(value := s.value + l))
    case ShiftKey => Continue(s.(shiftOn := !s.shiftOn))
    case BackKey => if s.value != "" then Continue(s.(value := s.value[..|s.value| - 1])) else Continue(s)
    case ClearKey => Continue(s.(value := ""))
    case SpaceKey => Continue(s.(value := s.value + " "))
    case DoneKey => Done(s.value)
    case NoKey => Continue(s)
  }

  /** One touch of the keyboard screen; an untouched panel changes nothing. */
  function KeyboardStep(v: Variant, s: KeyboardState, p: TouchPoint): (r: Step<KeyboardState, string>)
    ensures !p.pressed ==> r == Continue(s)
    ensures r.Done? ==> r.result == s.value
    ensures v.Legacy? && r.Continue? ==> r.state.shiftOn == s.shiftOn
  {
    if !p.pressed then Continue(s) else Edit(s, TargetAt(v, s.shiftOn, p.x, p.y))
  }

  /** Back undoes a typed key or a space; shift twice changes nothing; clear is
      idempotent. */
  lemma EditInverses(s: KeyboardState, l: string)
    requires l != ""
    ensures Edit(Edit(s, TypeKey(l)).state, BackKey).state.value == s.value + l[..|l| - 1]
    ensures Edit(Edit(s, SpaceKey).state, BackKey) == Continue(s)
    ensures Edit(Edit(s, ShiftKey).state, ShiftKey) == Continue(s)
    ensures Edit(Edit(s, ClearKey).state, ClearKey) == Edit(s, ClearKey)
  {
    var v := s.value + l;
    assert v[..|v| - 1] == s.value + l[..|l| - 1];
    assert (s.value + " ")[..|s.value|] == s.value;
  }

  /** The keyboard screen as a step function over touches. */
  function KeyboardScreen(v: Variant): (KeyboardState, TouchPoint) -> Step<KeyboardState, string>
  {
    (s: KeyboardState, p: TouchPoint) => KeyboardStep(v, s, p)
  }

  /** Touching key (r, c) and then OK returns the held text followed by that
      key's character. */
  lemma TypeKeyThenDone(v: Variant, s: KeyboardState, r: nat, c: nat, key: TouchPoint, ok: TouchPoint)
    requires r < |ActiveRows(v, s.shiftOn)| && c < |ActiveRows(v, s.shiftOn)[r]|
    requires ValidRows(ActiveRows(v, s.shiftOn))
    requires key.pressed && PointInRect(key.x, key.y, KeyGrid(ActiveRows(v, s.shiftOn))[r][c].rect)
    requires ok.pressed && PointInRect(ok.x, ok.y, DoneRect(v))
    ensures Run(KeyboardScreen(v), s, [key, ok]) == Done(s.value + [ActiveRows(v, s.shiftOn)[r][c]])
  {
    var rows := ActiveRows(v, s.shiftOn);
    KeyTouchTypesItsLabel(rows, r, c, key.x, key.y);
    var s1 := s.(value := s.value + [rows[r][c]]);
    assert KeyboardStep(v, s, key) == Continue(s1);
    DoneKeyReachable(v, s1.shiftOn, ok.x, ok.y);
    assert [key, ok][1..] == [ok];
  }

  // ---------------------------------------------------------------- entry box

  /** `value` with every character replaced by '*'. */
  function Mask(value: string): (m: string)
    ensures |m| == |value|
    ensures forall i :: 0 <= i < |m| ==> m[i] == '*'
  {
    if value == [] then [] else ['*'] + Mask(value[1..])
  }

  /** The entry box shows the value (masked when secret), cut to its last 28
      characters. */
  function ShownText(value: string, secret: bool): (t: string)
    ensures |t| == if |value| > 28 then 28 else |value|
    ensures !secret ==> t == value[|value| - |t|..]
    ensures secret ==> forall i :: 0 <= i < |t| ==> t[i] == '*'
  {
    var shown := if secret then Mask(value) else value;
    if |shown| > 28 then shown[|shown| - 28..] else shown
  }
}

=== FILE: legacy.dfy ===
/** The older single-file firmware (src/main.cpp). It shares the hit test, the
    URL codec, the keyboard edit rules and the geocode mapping with the modular
    firmware; what differs is modelled here: the name-only location file, the
    delete helpers that also reset the in-memory globals, the two-button main
    screen, the location setup screen and the refresh loop. */
module LegacyMain {
  import opened Common
  import opened Geometry
  import opened Types
  import opened Storage
  import opened Network
  import opened Display

  const DefaultSurfLocation: string := "Huntington Beach, CA"

  /** The globals of the older firmware. */
  datatype LegacyApp = LegacyApp(store: Store, wifiCredentials: WifiCredentials, surfLocation: string,
                                 cachedLocation: LocationInfo, wifiConnected: bool)

  // ---------------------------------------------------------------- store

  /** `saveSurfLocation(String)`: a document holding only the name. */
  function SaveSurfLocationName(store: Store, location: string, writeOk: bool): (r: Saved)
    ensures r.ok == writeOk
    ensures SameExcept(store, r.store, LocationFile)
    ensures !writeOk ==> r.store == store
    ensures writeOk ==> LoadSurfLocationName(r.store, true) == location
  {
    WriteDocument(store, LocationFile, map["location" := Str(location)], writeOk)
  }

  /** `loadSurfLocation`: the stored name, "" on any failure. */
  function LoadSurfLocationName(store: Store, readOk: bool): (name: string)
    ensures ReadDocument(store, LocationFile, readOk).None? ==> name == ""
  {
    match ReadDocument(store, LocationFile, readOk)
    case None => ""
    case Some(doc) => StringOr(doc, "location", "")
  }

  /** Both firmwares use the "location" key of /location.json: the older one reads
      the name the newer one saved, but the newer one reads a file saved by the
      older one as an invalid location, since it has no coordinates. */
  lemma LocationFileAcrossVersions(store: Store, loc: LocationInfo, name: string)
    requires loc.valid
    ensures LoadSurfLocationName(SaveSurfLocation(store, loc, true).store, true) == loc.displayName
    ensures !LoadSurfLocationInfo(SaveSurfLocationName(store, name, true).store, true).valid
    ensures LoadSurfLocationInfo(SaveSurfLocationName(store, name, true).store, true).displayName == name
  {
  }

  /** `deleteWifiCredentials`: remove the file and forget the in-memory credentials. */
  function ForgetWifi(app: LegacyApp): (r: LegacyApp)
    ensures r.wifiCredentials == NoCredentials
    ensures forall readOk: bool :: LoadWifiCredentials(r.store, readOk) == NoCredentials
    ensures r.surfLocation == app.surfLocation && r.cachedLocation == app.cachedLocation
  {
    app.(store := DeleteWifiCredentials(app.store), wifiCredentials := NoCredentials)
  }

  /** `deleteSurfLocation`: remove the file, fall back to the default spot's name
      and drop the cached coordinates, so the next cycle geocodes again. */
  function ForgetLocation(app: LegacyApp): (r: LegacyApp)
    ensures r.surfLocation == DefaultSurfLocation && r.cachedLocation == NoLocation
    ensures forall readOk: bool :: LoadSurfLocationName(r.store, readOk) == ""
    ensures r.wifiCredentials == app.wifiCredentials
  {
    app.(store := RemoveFile(app.store, LocationFile), surfLocation := DefaultSurfLocation,
         cachedLocation := NoLocation)
  }

  // ---------------------------------------------------------------- Wi-Fi

  /** What the outside world answers one `ensureWifiConnected`: whether the saved
      file opens, whether the saved credentials connect, and, when the setup
      screen has to run, the credentials of its last round (the one that
      connects) and whether that round's save succeeded. The earlier rounds are
      folded into this one answer: their saves are not modelled, so when the
      last save fails the store is the one before setup, not one an earlier
      round may have written. */
  datatype WifiAnswer = WifiAnswer(readOk: bool, savedConnects: bool, entered: WifiCredentials, writeOk: bool)

  /** The setup screen only returns once Connect is touched with an SSID. */
  predicate SetupAnswer(w: WifiAnswer)
  {
    w.entered.ssid != ""
  }

  /** `ensureWifiConnected`: the saved credentials when they are valid and
      connect; otherwise the setup screen's credentials, marked valid and saved.
      Either way the radio ends up with usable credentials, and when the store
      can be read and written they are exactly what it holds. */
  function EnsureWifiConnected(store: Store, w: WifiAnswer): (r: (WifiCredentials, Store))
    requires SetupAnswer(w)
    ensures r.0.valid && r.0.ssid != ""
    ensures SameExcept(store, r.1, WifiFile)
    ensures w.readOk && w.writeOk ==> LoadWifiCredentials(r.1, true) == r.0
    ensures r.0 == LoadWifiCredentials(store, w.readOk) || r.0 == w.entered.(valid := true)
    ensures !w.savedConnects ==> r.0 == w.entered.(valid := true)
    ensures LoadWifiCredentials(store, w.readOk).valid && w.savedConnects ==>
              r == (LoadWifiCredentials(store, w.readOk), store)
  {
    var saved := LoadWifiCredentials(store, w.readOk);
    if saved.valid && w.savedConnects then (saved, store)
    else
      var creds := w.entered.(valid := true);
      (creds, SaveWifiCredentials(store, creds, w.writeOk).store)
  }

  // ---------------------------------------------------------------- location setup

  const LegacyLocationButton: Rect := Rect(12, 76, 296, 44)
  const LegacySaveButton: Rect := Rect(12, 140, 144, 44)
  const LegacyDefaultButton: Rect := Rect(164, 140, 144, 44)

  /** One touch of the older `runLocationSetupTouch`: the text starts as the
      current location; the keyboard (answer `typed`) replaces it; Save returns a
      non-empty text, Default the default spot's name, and either is first saved
      to the location file (whether the write succeeded is not looked at). */
  function LegacyLocationStep(store: Store, writeOk: bool, location: string, p: TouchPoint, typed: string)
    : (r: Step<string, (string, Store)>)
    ensures !p.pressed ==> r == Continue(location)
    ensures r.Continue? ==> r.state == location || r.state == typed
    ensures r.Done? ==> r.result.0 != "" && (r.result.0 == location || r.result.0 == DefaultSurfLocation)
    ensures r.Done? ==> SameExcept(store, r.result.1, LocationFile)
    ensures r.Done? && writeOk ==> LoadSurfLocationName(r.result.1, true) == r.result.0
    ensures r.Done? && !writeOk ==> r.result.1 == store
    ensures p.pressed && PointInRect(p.x, p.y, LegacyLocationButton) ==> r == Continue(typed)
    ensures p.pressed && PointInRect(p.x, p.y, LegacySaveButton) && location != "" ==>
              r.Done? && r.result.0 == location
    ensures p.pressed && PointInRect(p.x, p.y, LegacyDefaultButton) ==>
              r.Done? && r.result.0 == DefaultSurfLocation
  {
    if !p.pressed then Continue(location)
    else if PointInRect(p.x, p.y, LegacyLocationButton) then Continue(typed)
    else if PointInRect(p.x, p.y, LegacySaveButton) && location != "" then
      Done((location, SaveSurfLocationName(store, location, writeOk).store))
    else if PointInRect(p.x, p.y, LegacyDefaultButton) then
      Done((DefaultSurfLocation, SaveSurfLocationName(store, DefaultSurfLocation, writeOk).store))
    else Continue(location)
  }

  /** Save with an empty text does nothing; Default always finishes, whatever
      was typed. */
  lemma LegacyLocationButtons(store: Store, p: TouchPoint, typed: string)
    requires p.pressed
    ensures PointInRect(p.x, p.y, LegacySaveButton) ==> LegacyLocationStep(store, true, "", p, typed) == Continue("")
    ensures PointInRect(p.x, p.y, LegacyDefaultButton) ==>
              forall l: string :: LegacyLocationStep(store, true, l, p, typed).Done?
                                  && LegacyLocationStep(store, true, l, p, typed).result.0 == DefaultSurfLocation
  {
    var l1, l2, l3 := LegacyLocationButton, LegacySaveButton, LegacyDefaultButton;
    SeparatedAreDisjoint(l1, l2);
    SeparatedAreDisjoint(l1, l3);
    SeparatedAreDisjoint(l2, l3);
  }

  // ---------------------------------------------------------------- main screen and loop

  /** The older `handleMainScreenTouch`: forget Wi-Fi, then forget location. */
  function LegacyHandleTouch(app: LegacyApp, p: TouchPoint, width: int): (r: (bool, LegacyApp))
    ensures !r.0 ==> r.1 == app
    ensures !p.pressed ==> !r.0
    ensures r.0 ==> r.1 == ForgetWifi(app).(wifiConnected := false) || r.1 == ForgetLocation(app)
    ensures p.pressed && PointInRect(p.x, p.y, LegacyControlButtons(width).forgetWifi) ==>
              r == (true, ForgetWifi(app).(wifiConnected := false))
    ensures p.pressed && PointInRect(p.x, p.y, LegacyControlButtons(width).forgetLocation) ==>
              r == (true, ForgetLocation(app))
  {
    var b := LegacyControlButtons(width);
    SeparatedAreDisjoint(b.forgetWifi, b.forgetLocation);
    if !p.pressed then (false, app)
    else if PointInRect(p.x, p.y, b.forgetWifi) then (true, ForgetWifi(app).(wifiConnected := false))
    else if PointInRect(p.x, p.y, b.forgetLocation) then (true, ForgetLocation(app))
    else (false, app)
  }

  /** The answers the outside world gives one pass of `loop()`: whether the
      link that was up at the end of the last pass is still up (`WiFi.status()`),
      the outcome of `ensureWifiConnected` (used only when the radio is down), the name the
      location screen returns and whether saving it succeeds (used only when the
      name is empty), the result of geocoding the name in force and of the
      forecast request; then, for the refresh wait after a shown forecast, the
      touch that decides it on a screen `width` pixels wide and the outcome of the
      `ensureWifiConnected` that follows a handled touch. */
  datatype CycleAnswers = CycleAnswers(linkUp: bool, wifi: WifiAnswer, setupName: string, setupWriteOk: bool,
                                       located: LocationInfo, forecast: SurfForecast,
                                       touch: TouchPoint, width: int, rewifi: WifiAnswer)

  /** Answers the screens can give: the Wi-Fi setup returns an SSID and the
      location screen a non-empty name. */
  predicate ScreensAnswer(a: CycleAnswers)
  {
    SetupAnswer(a.wifi) && a.setupName != "" && SetupAnswer(a.rewifi)
  }

  /** The state `loop()` keeps: a live connection uses valid credentials. */
  predicate Connected(app: LegacyApp)
  {
    app.wifiConnected ==> app.wifiCredentials.valid && app.wifiCredentials.ssid != ""
  }

  /** What one pass of `loop()` ends with. */
  datatype CycleEnd = LocationRetry | ForecastRetry | Shown(forecast: SurfForecast)

  /** `loop()` up to the drawing of the forecast: reconnect when the radio is
      down or the link dropped since the last pass, ask for a
      location if the name is empty, geocode only when no valid location is
      cached, and retry later when geocoding or the forecast fails. */
  function LegacyCycle(app: LegacyApp, a: CycleAnswers): (r: (CycleEnd, LegacyApp))
    requires ScreensAnswer(a)
    ensures r.1.wifiConnected && r.1.surfLocation != ""
    ensures Connected(app) ==> Connected(r.1)
    ensures !(app.wifiConnected && a.linkUp) ==> r.1.wifiCredentials.valid && Connected(r.1)
    ensures app.wifiConnected && a.linkUp ==> r.1.wifiCredentials == app.wifiCredentials
    ensures !(app.wifiConnected && a.linkUp) && !a.wifi.savedConnects ==>
              r.1.wifiCredentials == a.wifi.entered.(valid := true)
    ensures !(app.wifiConnected && a.linkUp) && a.wifi.readOk && a.wifi.writeOk ==>
              LoadWifiCredentials(r.1.store, true) == r.1.wifiCredentials
    ensures app.surfLocation != "" ==> r.1.surfLocation == app.surfLocation
    ensures app.surfLocation == "" ==> r.1.surfLocation == a.setupName
    ensures app.surfLocation == "" && a.setupWriteOk ==> LoadSurfLocationName(r.1.store, true) == a.setupName
    ensures app.wifiConnected && a.linkUp && app.surfLocation != "" ==> r.1.store == app.store
    ensures app.surfLocation != "" ==> SameExcept(app.store, r.1.store, WifiFile)
    ensures app.cachedLocation.valid ==> r.1.cachedLocation == app.cachedLocation
    ensures !app.cachedLocation.valid ==> r.1.cachedLocation == a.located
    ensures r.0 == LocationRetry <==> !r.1.cachedLocation.valid
    ensures r.0.Shown? <==> r.1.cachedLocation.valid && a.forecast.valid
    ensures r.0.Shown? ==> r.0.forecast == a.forecast
  {
    var online := if app.wifiConnected && a.linkUp then app
                  else var w := EnsureWifiConnected(app.store, a.wifi);
                       app.(wifiCredentials := w.0, store := w.1, wifiConnected := true);
    var named := if online.surfLocation != "" then online
                 else online.(surfLocation := a.setupName,
                              store := SaveSurfLocationName(online.store, a.setupName, a.setupWriteOk).store);
    var cached := if named.cachedLocation.valid then named.cachedLocation else a.located;
    var next := named.(cachedLocation := cached);
    if !cached.valid then (LocationRetry, next)
    else if !a.forecast.valid then (ForecastRetry, next)
    else (Shown(a.forecast), next)
  }

  /** The refresh wait after a shown forecast: after a handled touch
      `ensureWifiConnected` runs again (its answer is `wifi`) and the cached
      location is dropped, so the next pass geocodes again. */
  function AfterTouch(app: LegacyApp, handled: bool, wifi: WifiAnswer): (r: LegacyApp)
    requires SetupAnswer(wifi)
    ensures !handled ==> r == app
    ensures handled ==> !r.cachedLocation.valid && r.wifiConnected && Connected(r)
    ensures handled ==> r.surfLocation == app.surfLocation && SameExcept(app.store, r.store, WifiFile)
  {
    if handled then
      var w := EnsureWifiConnected(app.store, wifi);
      app.(wifiCredentials := w.0, store := w.1, wifiConnected := true, cachedLocation := NoLocation)
    else app
  }

  /** Forgetting the location does not bring the location screen back: the name
      falls back to the default spot, which the next pass geocodes. */
  lemma ForgetLocationGeocodesDefault(app: LegacyApp, p: TouchPoint, width: int,
                                      wifi: WifiAnswer, a: CycleAnswers)
    requires SetupAnswer(wifi) && ScreensAnswer(a)
    requires p.pressed && PointInRect(p.x, p.y, LegacyControlButtons(width).forgetLocation)
    ensures var touched := LegacyHandleTouch(app, p, width);
            var next := LegacyCycle(AfterTouch(touched.1, touched.0, wifi), a).1;
            touched.0 && next.surfLocation == DefaultSurfLocation && next.cachedLocation == a.located
  {
    var b := LegacyControlButtons(width);
    SeparatedAreDisjoint(b.forgetWifi, b.forgetLocation);
  }

  /** One pass of `loop()` as a step over its answers; it never finishes. A pass
      that ends in a retry returns at once. After a shown forecast the refresh
      wait runs: touches that hit no button change nothing, and the first one
      that does is handled and ends the wait, so one touch stands for the wait. */
  function LoopStep(app: LegacyApp, a: CycleAnswers): (r: Step<LegacyApp, ()>)
    requires ScreensAnswer(a)
    ensures r.Continue?
    ensures r.state.wifiConnected && r.state.surfLocation != ""
    ensures Connected(app) ==> Connected(r.state)
    ensures !LegacyCycle(app, a).0.Shown? ==> r.state == LegacyCycle(app, a).1
    ensures var shown := LegacyCycle(app, a).1;
            LegacyCycle(app, a).0.Shown? && !LegacyHandleTouch(shown, a.touch, a.width).0 ==> r.state == shown
    ensures var shown := LegacyCycle(app, a).1;
            LegacyCycle(app, a).0.Shown? && LegacyHandleTouch(shown, a.touch, a.width).0 ==>
              !r.state.cachedLocation.valid
              && SameExcept(LegacyHandleTouch(shown, a.touch, a.width).1.store, r.state.store, WifiFile)
  {
    var cycle := LegacyCycle(app, a);
    if cycle.0.Shown? then
      var touched := LegacyHandleTouch(cycle.1, a.touch, a.width);
      Continue(AfterTouch(touched.1, touched.0, a.rewifi))
    else Continue(cycle.1)
  }

  function LegacyLoop(): (LegacyApp, CycleAnswers) -> Step<LegacyApp, ()>
  {
    (app: LegacyApp, a: CycleAnswers) => if ScreensAnswer(a) then LoopStep(app, a) else Continue(app)
  }

  /** However long the loop runs, a live connection always uses valid
      credentials, and after the first pass the radio is up and a name is set. */
  lemma LoopKeepsConnection(app: LegacyApp, answers: seq<CycleAnswers>)
    requires Connected(app)
    requires forall k :: 0 <= k < |answers| ==> ScreensAnswer(answers[k])
    ensures Run(LegacyLoop(), app, answers).Continue?
    ensures Connected(Run(LegacyLoop(), app, answers).state)
    ensures |answers| > 0 ==> Run(LegacyLoop(), app, answers).state.wifiConnected
                              && Run(LegacyLoop(), app, answers).state.surfLocation != ""
  {
    var inv := (s: LegacyApp) => Connected(s);
    var live := (s: LegacyApp) => Connected(s) && s.wifiConnected && s.surfLocation != "";
    var post := (u: ()) => false;
    forall t: LegacyApp, i: CycleAnswers | inv(t) && ScreensAnswer(i)
      ensures LegacyLoop()(t, i) == Continue(LoopStep(t, i).state) && live(LoopStep(t, i).state)
    {
    }
    RunKeeps(LegacyLoop(), ScreensAnswer, inv, post, app, answers);
    if |answers| > 0 {
      var first := LoopStep(app, answers[0]).state;
      RunKeeps(LegacyLoop(), ScreensAnswer, live, post, first, answers[1..]);
      assert Run(LegacyLoop(), app, answers) == Run(LegacyLoop(), first, answers[1..]);
    }
  }

  /** There is no failure counter: however many geocoding attempts fail in a row,
      the loop keeps the same location name and simply retries. */
  lemma GeocodeRetriesForever(app: LegacyApp, answers: seq<CycleAnswers>)
    requires !app.cachedLocation.valid && app.surfLocation != ""
    requires forall k :: 0 <= k < |answers| ==> !answers[k].located.valid
    ensures Run(LegacyLoop(), app, answers).Continue?
    ensures Run(LegacyLoop(), app, answers).state.surfLocation == app.surfLocation
    ensures !Run(LegacyLoop(), app, answers).state.cachedLocation.valid
  {
    var inv := (s: LegacyApp) => !s.cachedLocation.valid && s.surfLocation == app.surfLocation;
    var ok := (a: CycleAnswers) => !a.located.valid;
    var post := (u: ()) => false;
    RunKeeps(LegacyLoop(), ok, inv, post, app, answers);
  }

  // ---------------------------------------------------------------- geocoding

  /** The older `fetchLocation` as written: `doc["results"][0]`, mapped when it
      exists, the default location otherwise. */
  function FirstResult(connected: bool, reply: HttpReply<GeocodeDoc>): (l: LocationInfo)
    ensures !connected || reply.status != HttpOk ==> l == NoLocation
  {
    if !connected || reply.status != HttpOk || reply.body.None? then NoLocation
    else match reply.body.value.results
         case None => NoLocation
         case Some(rs) => if |rs| == 0 then NoLocation else ToLocationInfo(rs[0])
  }

  /** It agrees with the modular `fetchLocation`, which maps every result and
      keeps the first. */
  lemma FirstResultIsFetchLocation(connected: bool, reply: HttpReply<GeocodeDoc>)
    ensures FirstResult(connected, reply) == FetchLocation(connected, reply)
  {
  }
}

=== FILE: mainscreen.dfy ===
/** `handleMainScreenTouch` (src/TouchUI.cpp): the four control buttons of the
    forecast screen, checked in a fixed order, and their effect on the
    application's state. The radio is reduced to a connected flag. */
module MainScreen {
  import opened Common
  import opened Geometry
  import opened Types
  import opened Storage
  import opened Theming
  import opened Display
  import opened Wizards

  /** The globals and by-reference arguments the handler touches. */
  datatype AppState = AppState(store: Store, surfLocation: string, cachedLocation: LocationInfo,
                               theme: ThemeState, waveThreshold: real, wifiConnected: bool)

  /** Return codes: nothing handled, a location-affecting change, a display-only change. */
  const NotHandled: int := 0
  const LocationAffecting: int := 1
  const DisplayOnly: int := 2

  /** One touch on the forecast screen whose buttons are laid out for `width`.
      `wave` is what the wave screen returns if the wave button opens it. */
  function HandleMainScreenTouch(s: AppState, p: TouchPoint, width: int, wave: WaveChoice, writeOk: bool)
    : (r: (int, AppState))
    ensures r.0 == NotHandled || r.0 == LocationAffecting || r.0 == DisplayOnly
    ensures r.0 == NotHandled ==> r.1 == s
    ensures !p.pressed ==> r.0 == NotHandled
    ensures r.0 == LocationAffecting ==> r.1.theme == s.theme && r.1.waveThreshold == s.waveThreshold
    ensures r.0 == DisplayOnly ==> r.1.surfLocation == s.surfLocation && r.1.cachedLocation == s.cachedLocation
                                   && r.1.wifiConnected == s.wifiConnected
                                   && LoadWifiCredentials(r.1.store, true) == LoadWifiCredentials(s.store, true)
                                   && LoadSurfLocationInfo(r.1.store, true) == LoadSurfLocationInfo(s.store, true)
  {
    var b := ControlButtons(width);
    if !p.pressed then (NotHandled, s)
    else if PointInRect(p.x, p.y, b.forgetWifi) then
      (LocationAffecting, s.(store := DeleteWifiCredentials(s.store), wifiConnected := false))
    else if PointInRect(p.x, p.y, b.forgetLocation) then
      (LocationAffecting, s.(store := DeleteSurfLocation(s.store), surfLocation := "", cachedLocation := NoLocation))
    else if PointInRect(p.x, p.y, b.theme) then
      var t := Toggle(s.theme);
      (DisplayOnly, s.(theme := t, store := SaveThemePreference(s.store, t.darkMode, writeOk).store))
    else if PointInRect(p.x, p.y, b.wave) then
      var committed := CommitWave(wave, DeleteWaveHeightPreference(s.store), writeOk);
      (DisplayOnly, s.(waveThreshold := committed.0, store := committed.1))
    else (NotHandled, s)
  }

  /** Each button does its own job (the buttons are disjoint, so the order of the
      tests never matters):
      - forget Wi-Fi removes the credentials and drops the connection;
      - forget location clears the spot everywhere;
      - theme flips the mode and stores it;
      - wave stores exactly what the wave screen chose (or nothing). */
  lemma ButtonsDoTheirJob(s: AppState, p: TouchPoint, width: int, wave: WaveChoice)
    requires p.pressed
    ensures var b := ControlButtons(width);
            var r := HandleMainScreenTouch(s, p, width, wave, true);
            (PointInRect(p.x, p.y, b.forgetWifi) ==>
               r.0 == LocationAffecting && !r.1.wifiConnected && LoadWifiCredentials(r.1.store, true) == NoCredentials)
            && (PointInRect(p.x, p.y, b.forgetLocation) ==>
               r.0 == LocationAffecting && r.1.surfLocation == "" && r.1.cachedLocation == NoLocation
               && LoadSurfLocationInfo(r.1.store, true) == NoLocation)
            && (PointInRect(p.x, p.y, b.theme) ==>
               r.0 == DisplayOnly && r.1.theme.darkMode == !s.theme.darkMode
               && LoadThemePreference(r.1.store, true) == !s.theme.darkMode)
            && (PointInRect(p.x, p.y, b.wave) ==>
               r.0 == DisplayOnly && r.1.waveThreshold == Feet(wave.halfFeet)
               && LoadWaveHeightPreference(r.1.store, true)
                  == (if wave.persist then Feet(wave.halfFeet) else DefaultWaveThreshold))
  {
    ControlButtonsDisjoint(width);
  }

  /** Pressing the theme button twice restores the theme and the stored mode. */
  lemma ThemeButtonTwice(s: AppState, p: TouchPoint, width: int, wave: WaveChoice)
    requires p.pressed && PointInRect(p.x, p.y, ControlButtons(width).theme)
    requires s.theme == Apply(s.theme)
    ensures var once := HandleMainScreenTouch(s, p, width, wave, true).1;
            var twice := HandleMainScreenTouch(once, p, width, wave, true).1;
            twice.theme == s.theme && LoadThemePreference(twice.store, true) == s.theme.darkMode
  {
    ControlButtonsDisjoint(width);
    ApplyIdempotentToggleInvolution(s.theme);
  }
}

=== FILE: network.dfy ===
/** Response shaping of the two HTTP services (src/Network.cpp): turning an
    already-parsed geocoding or marine-forecast response into `LocationInfo`
    and `SurfForecast` records, plus the bounded wait for a Wi-Fi connection.
    The radio, the HTTP client and the JSON parser are not modelled: their
    outcomes are inputs. */
module Network {
  import opened Common
  import opened Types

  const HttpOk: int := 200

  /** The outcome of one GET: the status code, and the parsed body (`None` when
      the payload does not parse as JSON). */
  datatype HttpReply<D> = HttpReply(status: int, body: Option<D>)

  /** One element of the geocoding `results` array. A field is `None` when the
      key is absent, null or of another JSON type. */
  datatype GeoResult = GeoResult(latitude: Option<real>, longitude: Option<real>, name: Option<string>,
                                 admin1: Option<string>, country: Option<string>)

  /** The geocoding document: `results` is `None` when the key is absent. */
  datatype GeocodeDoc = GeocodeDoc(results: Option<seq<GeoResult>>)

  /** The marine document's four `hourly` arrays, each `None` when absent (also
      when `hourly` itself is absent). An element is `None` when null or of
      another JSON type. */
  datatype ForecastDoc = ForecastDoc(time: Option<seq<Option<string>>>, waveHeight: Option<seq<Option<real>>>,
                                     wavePeriod: Option<seq<Option<real>>>, waveDirection: Option<seq<Option<real>>>)

  /** ArduinoJson's `value | default`. */
  function OrElse<T>(o: Option<T>, default: T): (r: T)
    ensures o.Some? ==> r == o.value
    ensures o.None? ==> r == default
  {
    match o
    case Some(v) => v
    case None => default
  }

  /** `array[0] | default`: element 0 of a possibly empty array. */
  function FirstOr<T>(a: seq<Option<T>>, default: T): (r: T)
    ensures |a| > 0 && a[0].Some? ==> r == a[0].value
    ensures |a| == 0 || a[0].None? ==> r == default
  {
    if |a| > 0 then OrElse(a[0], default) else default
  }

  // ---------------------------------------------------------------- display name

  /** `name`, then ", " + admin1 when admin1 is non-empty, then ", " + country
      when country is non-empty. */
  function ComposeDisplayName(name: string, admin1: string, country: string): (r: string)
    ensures |r| == |name| + (if admin1 == "" then 0 else |admin1| + 2) + (if country == "" then 0 else |country| + 2)
    ensures r[..|name|] == name
    ensures admin1 == "" && country == "" ==> r == name
  {
    var withRegion := if admin1 != "" then name + ", " + admin1 else name;
    if country != "" then withRegion + ", " + country else withRegion
  }

  /** Reference definition: the strings of `parts` separated by `sep`. */
  function Join(parts: seq<string>, sep: string): string
  {
    if |parts| == 0 then ""
    else if |parts| == 1 then parts[0]
    else parts[0] + sep + Join(parts[1..], sep)
  }

  /** The non-empty strings of `parts`, in order. */
  function NonEmpty(parts: seq<string>): (r: seq<string>)
    ensures |r| <= |parts|
    ensures forall i :: 0 <= i < |r| ==> r[i] != ""
  {
    if |parts| == 0 then []
    else if parts[0] == "" then NonEmpty(parts[1..])
    else [parts[0]] + NonEmpty(parts[1..])
  }

  /** The composed name is the name followed by the non-empty region and country,
      joined by ", ": empty parts are omitted, never shown as ", , ". */
  lemma DisplayNameIsJoin(name: string, admin1: string, country: string)
    ensures ComposeDisplayName(name, admin1, country) == Join([name] + NonEmpty([admin1, country]), ", ")
  {
    var rest := NonEmpty([admin1, country]);
    assert [admin1, country][1..] == [country];
    assert NonEmpty([country][1..]) == [];
    assert NonEmpty([country]) == (if country == "" then [] else [country]);
    if admin1 != "" && country != "" {
      assert ([name] + rest)[1..] == [admin1, country];
      assert [admin1, country][1..] == [country];
      assert Join([admin1, country], ", ") == admin1 + ", " + country;
    } else if admin1 != "" {
      assert [name] + rest == [name, admin1];
      assert ([name] + rest)[1..] == [admin1];
    } else if country != "" {
      assert [name] + rest == [name, country];
      assert ([name] + rest)[1..] == [country];
    } else {
      assert [name] + rest == [name];
    }
  }

  // ---------------------------------------------------------------- geocoding

  /** The body of the `for (JsonObject result : results)` loop. */
  function ToLocationInfo(g: GeoResult): (l: LocationInfo)
    ensures l.valid
    ensures l.displayName == ComposeDisplayName(OrElse(g.name, ""), OrElse(g.admin1, ""), OrElse(g.country, ""))
    ensures l.latitude == OrElse(g.latitude, 0.0) && l.longitude == OrElse(g.longitude, 0.0)
  {
    LocationInfo(OrElse(g.latitude, 0.0), OrElse(g.longitude, 0.0),
                 ComposeDisplayName(OrElse(g.name, ""), OrElse(g.admin1, ""), OrElse(g.country, "")), true)
  }

  /** One entry per result, in response order. */
  function MapResults(rs: seq<GeoResult>): (ls: seq<LocationInfo>)
    ensures |ls| == |rs|
    ensures forall i :: 0 <= i < |rs| ==> ls[i] == ToLocationInfo(rs[i])
  {
    if rs == [] then [] else [ToLocationInfo(rs[0])] + MapResults(rs[1..])
  }

  /** The usable results of a reply: `None` when the radio is down, the status is
      not 200, the payload does not parse or `results` is absent. */
  function GeocodeResults(connected: bool, reply: HttpReply<GeocodeDoc>): Option<seq<GeoResult>>
  {
    if !connected || reply.status != HttpOk || reply.body.None? then None
    else reply.body.value.results
  }

  /** `fetchLocationMatches`: the count requested in the URL does not bound the
      result, every returned object is mapped. Every failure yields no match. */
  function FetchLocationMatches(connected: bool, reply: HttpReply<GeocodeDoc>): (ms: seq<LocationInfo>)
    ensures GeocodeResults(connected, reply).None? ==> ms == []
    ensures !connected || reply.status != HttpOk ==> ms == []
    ensures GeocodeResults(connected, reply).Some? ==>
              |ms| == |GeocodeResults(connected, reply).value|
              && forall i :: 0 <= i < |ms| ==> ms[i] == ToLocationInfo(GeocodeResults(connected, reply).value[i])
    ensures forall i :: 0 <= i < |ms| ==> ms[i].valid
  {
    match GeocodeResults(connected, reply)
    case None => []
    case Some(rs) => MapResults(rs)
  }

  /** `fetchLocation`: the first match, or the invalid all-default location. */
  function FetchLocation(connected: bool, reply: HttpReply<GeocodeDoc>): (l: LocationInfo)
    ensures l.valid <==> FetchLocationMatches(connected, reply) != []
    ensures !l.valid ==> l == NoLocation
    ensures l.valid ==> l == FetchLocationMatches(connected, reply)[0]
  {
    var ms := FetchLocationMatches(connected, reply);
    if ms != [] then ms[0] else NoLocation
  }

  /** The first match is the mapping of the first result object. */
  lemma FetchLocationIsFirstResult(connected: bool, reply: HttpReply<GeocodeDoc>)
    requires connected && reply.status == HttpOk && reply.body.Some?
    requires reply.body.value.results.Some? && |reply.body.value.results.value| > 0
    ensures FetchLocation(connected, reply) == ToLocationInfo(reply.body.value.results.value[0])
  {
  }

  // ---------------------------------------------------------------- forecast

  /** The document passes the validity check of `fetchSurfForecast`: all four
      arrays are present and `time` is non-empty (the other three may be empty). */
  predicate ForecastUsable(d: ForecastDoc)
  {
    d.time.Some? && d.waveHeight.Some? && d.wavePeriod.Some? && d.waveDirection.Some? && |d.time.value| > 0
  }

  /** `fetchSurfForecast`: valid exactly when the reply arrived and is usable;
      then every field comes from element 0 (0 or "" when that element is missing
      or null); otherwise the all-zero invalid forecast. */
  function FetchSurfForecast(connected: bool, reply: HttpReply<ForecastDoc>): (f: SurfForecast)
    ensures f.valid <==> connected && reply.status == HttpOk && reply.body.Some? && ForecastUsable(reply.body.value)
    ensures !f.valid ==> f == NoForecast
    ensures f.valid ==> var d := reply.body.value;
                        f.timeLabel == OrElse(d.time.value[0], "")
                        && f.waveHeight == FirstOr(d.waveHeight.value, 0.0)
                        && f.wavePeriod == FirstOr(d.wavePeriod.value, 0.0)
                        && f.waveDirection == FirstOr(d.waveDirection.value, 0.0)
  {
    if !connected || reply.status != HttpOk || reply.body.None? then NoForecast
    else
      var d := reply.body.value;
      if !ForecastUsable(d) then NoForecast
      else SurfForecast(FirstOr(d.waveHeight.value, 0.0), FirstOr(d.wavePeriod.value, 0.0),
                        FirstOr(d.waveDirection.value, 0.0), OrElse(d.time.value[0], ""), true)
  }

  /** The validity check does not look at the height array's length: a reply whose
      `wave_height` array is empty still gives a valid forecast, of height 0. */
  lemma EmptyHeightsStillValid(hour: string)
    ensures var d := ForecastDoc(Some([Some(hour)]), Some([]), Some([]), Some([]));
            var f := FetchSurfForecast(true, HttpReply(HttpOk, Some(d)));
            f.valid && f.waveHeight == 0.0 && f.timeLabel == hour
  {
  }

  // ---------------------------------------------------------------- Wi-Fi

  const ConnectPolls: nat := 60

  /** `connectWifi`: refuse invalid credentials; otherwise poll the radio status
      (`status(i)` is true when poll `i` reports a connection) at most 60 times
      and succeed at the first connected poll. `polls` counts the polls made. */
  method ConnectWifi(creds: WifiCredentials, status: nat -> bool) returns (connected: bool, polls: nat)
    ensures !creds.valid ==> !connected && polls == 0
    ensures connected <==> creds.valid && exists i :: 0 <= i < ConnectPolls && status(i)
    ensures connected ==> 1 <= polls <= ConnectPolls && status(polls - 1)
                          && forall j :: 0 <= j < polls - 1 ==> !status(j)
    ensures creds.valid && !connected ==> polls == ConnectPolls
  {
    if !creds.valid {
      return false, 0;
    }
    var attempt := 0;
    while attempt < ConnectPolls
      invariant 0 <= attempt <= ConnectPolls
      invariant forall j :: 0 <= j < attempt ==> !status(j)
    {
      if status(attempt) {
        return true, attempt + 1;
      }
      attempt := attempt + 1;
    }
    return false, ConnectPolls;
  }
}

=== FILE: serial.dfy ===
/** The oldest firmware (main.cpp at the repository root): Wi-Fi credentials
    typed on the serial console, a fixed surf spot, and the same geocoding rules
    as the later firmwares with one extra guard on an empty reply. */
module SerialMain {
  import opened Common
  import opened Types
  import opened Network

  // ---------------------------------------------------------------- trimming

  /** The characters Arduino's `String::trim` strips: C `isspace`. */
  predicate IsSpace(c: char)
  {
    c == ' ' || c == '\t' || c == '\n' || c == '\U{000B}' || c == '\U{000C}' || c == '\r'
  }

  /** The number of white-space characters `s` starts with. */
  function LeadingSpaces(s: string): (n: nat)
    ensures n <= |s| && (n == |s| || !IsSpace(s[n]))
    ensures forall k :: 0 <= k < n ==> IsSpace(s[k])
  {
    if s != [] && IsSpace(s[0]) then 1 + LeadingSpaces(s[1..]) else 0
  }

  /** The number of white-space characters `s` ends with. */
  function TrailingSpaces(s: string): (n: nat)
    ensures n <= |s| && (n == |s| || !IsSpace(s[|s| - 1 - n]))
    ensures forall k :: |s| - n <= k < |s| ==> IsSpace(s[k])
  {
    if s != [] && IsSpace(s[|s| - 1]) then 1 + TrailingSpaces(s[..|s| - 1]) else 0
  }

  /** `String::trim`: skip the white space at the front, back off over the white
      space at the end, keep what lies between. The result is the slice of `s`
      that starts after its leading white space, is followed only by white
      space, and neither starts nor ends with any; so a string with no white
      space at either end is returned unchanged. */
  function Trim(s: string): (r: string)
    ensures var i := LeadingSpaces(s);
            i + |r| <= |s| && r == s[i..i + |r|]
            && forall k :: i + |r| <= k < |s| ==> IsSpace(s[k])
    ensures r == [] || (!IsSpace(r[0]) && !IsSpace(r[|r| - 1]))
    ensures |r| <= |s| && forall c :: c in r ==> c in s
    ensures s != [] && !IsSpace(s[0]) && !IsSpace(s[|s| - 1]) ==> r == s
  {
    var i := LeadingSpaces(s);
    if i == |s| then []
    else
      var j := |s| - TrailingSpaces(s);
      assert i < j;
      SliceChars(s, i, j);
      s[i..j]
  }

  /** Every character of a slice is a character of the whole. */
  lemma SliceChars(s: string, i: nat, j: nat)
    requires i <= j <= |s|
    ensures forall c :: c in s[i..j] ==> c in s
  {
    forall c | c in s[i..j]
      ensures c in s
    {
      var k :| 0 <= k < j - i && s[i..j][k] == c;
      assert s[i + k] == c;
    }
  }

  /** Trimming twice is trimming once. */
  lemma {:induction false} TrimIdempotent(s: string)
    ensures Trim(Trim(s)) == Trim(s)
  {
    var r := Trim(s);
    if r == [] {
      assert LeadingSpaces(r) == 0;
    }
  }

  // ---------------------------------------------------------------- line assembly

  /** `s` without its carriage returns. */
  function DropCR(s: string): (r: string)
    ensures '\r' !in r
    ensures |r| <= |s| && forall c :: c in r ==> c in s
  {
    if s == [] then [] else (if s[0] == '\r' then [] else [s[0]]) + DropCR(s[1..])
  }

  lemma {:induction false} DropCRAppend(a: string, c: char)
    ensures DropCR(a + [c]) == DropCR(a) + (if c == '\r' then [] else [c])
    decreases |a|
  {
    if a == [] {
      assert a + [c] == [c];
    } else {
      assert (a + [c])[1..] == a[1..] + [c];
      DropCRAppend(a[1..], c);
    }
  }

  /** The reference reading of one line: the characters before the first
      newline without carriage returns, trimmed, and what stays in the serial
      buffer for the next read (nothing, when no newline came before the
      timeout). */
  function Assemble(received: string): (r: (string, string))
    ensures '\n' !in r.0 && '\r' !in r.0
    ensures |r.0| + |r.1| <= |received| && r.1 == received[|received| - |r.1|..]
  {
    if received == [] then ([], [])
    else if received[0] == '\n' then ([], received[1..])
    else
      var t := Assemble(received[1..]);
      ((if received[0] == '\r' then [] else [received[0]]) + t.0, t.1)
  }

  function ReadLine(received: string): (r: (string, string))
    ensures '\n' !in r.0 && '\r' !in r.0
    ensures r.0 == [] || (!IsSpace(r.0[0]) && !IsSpace(r.0[|r.0| - 1]))
    ensures |r.1| <= |received| && r.1 == received[|received| - |r.1|..]
  {
    var a := Assemble(received);
    (Trim(a.0), a.1)
  }

  /** Everything before the first newline, less its carriage returns, is the line;
      everything after it stays buffered. */
  lemma {:induction false} AssembleSplit(a: string, b: string)
    requires '\n' !in a
    ensures Assemble(a + "\n" + b) == (DropCR(a), b)
    ensures Assemble(a) == (DropCR(a), [])
    decreases |a|
  {
    if a != [] {
      assert (a + "\n" + b)[1..] == a[1..] + "\n" + b;
      AssembleSplit(a[1..], b);
    } else {
      assert a + "\n" + b == "\n" + b;
    }
  }

  /** The line read is the text before the first newline with its carriage
      returns dropped and its outer white space trimmed; the text after the
      newline stays buffered. Without a newline the whole input is the line. */
  lemma ReadLineSplit(a: string, b: string)
    requires '\n' !in a
    ensures ReadLine(a + "\n" + b) == (Trim(DropCR(a)), b)
    ensures ReadLine(a) == (Trim(DropCR(a)), [])
  {
    AssembleSplit(a, b);
  }

  /** `readLineFromSerial`: the characters available before the timeout are
      `received`; the loop skips carriage returns, stops at the first newline
      and trims. */
  method ReadLineFromSerial(received: string) returns (line: string, rest: string)
    ensures (line, rest) == ReadLine(received)
  {
    var input: string := [];
    var i := 0;
    while i < |received|
      invariant 0 <= i <= |received|
      invariant '\n' !in received[..i]
      invariant input == DropCR(received[..i])
    {
      var c := received[i];
      if c == '\n' {
        assert received == received[..i] + "\n" + received[i + 1..];
        AssembleSplit(received[..i], received[i + 1..]);
        return Trim(input), received[i + 1..];
      }
      DropCRAppend(received[..i], c);
      assert received[..i + 1] == received[..i] + [c];
      if c != '\r' {
        input := input + [c];
      }
      i := i + 1;
    }
    assert received[..i] == received;
    AssembleSplit(received, []);
    line, rest := Trim(input), [];
  }

  // ---------------------------------------------------------------- credentials

  const CompiledSsid: string := "The neighbors wifi"
  const CompiledPassword: string := "Theneighborspassword"
  const SurfLocation: string := "Huntington Beach, CA"

  /** `promptForWifi`: an empty line keeps the previously entered value. */
  function PromptForWifi(ssidInput: string, passInput: string, ssidLine: string, passLine: string)
    : (r: (string, string))
    ensures r.0 == (if ssidLine == "" then ssidInput else ssidLine)
    ensures r.1 == (if passLine == "" then passInput else passLine)
    ensures ssidLine != "" ==> r.0 != ""
  {
    (if ssidLine == "" then ssidInput else ssidLine, if passLine == "" then passInput else passLine)
  }

  /** The name and password `connectWifi` hands the radio: entered values, each
      falling back to the compiled-in one when empty. */
  function EffectiveCredentials(ssidInput: string, passInput: string): (r: (string, string))
    ensures r.0 != "" && r.1 != ""
    ensures ssidInput != "" ==> r.0 == ssidInput
    ensures ssidInput == "" ==> r.0 == CompiledSsid
    ensures passInput != "" ==> r.1 == passInput
    ensures passInput == "" ==> r.1 == CompiledPassword
  {
    (if ssidInput == "" then CompiledSsid else ssidInput, if passInput == "" then CompiledPassword else passInput)
  }

  /** At boot both inputs are empty: the typed lines win, blanks fall back to the
      compiled-in values, and an all-blank prompt connects with the compiled-in
      pair. */
  lemma BootPrompt(ssidLine: string, passLine: string)
    ensures var typed := PromptForWifi("", "", ssidLine, passLine);
            var used := EffectiveCredentials(typed.0, typed.1);
            (ssidLine != "" ==> used.0 == ssidLine) && (ssidLine == "" ==> used.0 == CompiledSsid)
            && (passLine != "" ==> used.1 == passLine) && (passLine == "" ==> used.1 == CompiledPassword)
  {
  }

  /** `connectWifi`'s wait: `status(j)` is the radio's answer at the j-th check.
      It counts failed checks and gives up when the count reaches 60. */
  method ConnectWait(status: nat -> bool) returns (connected: bool, checks: nat)
    ensures 1 <= checks <= 60
    ensures forall j :: 0 <= j < checks - 1 ==> !status(j)
    ensures connected <==> status(checks - 1)
    ensures !connected ==> checks == 60
    ensures connected <==> exists j :: 0 <= j < 60 && status(j)
  {
    var retries: nat := 0;
    while !status(retries)
      invariant retries < 60
      invariant forall j :: 0 <= j < retries ==> !status(j)
      decreases 60 - retries
    {
      retries := retries + 1;
      if retries >= 60 {
        assert forall j :: 0 <= j < 60 ==> !status(j);
        return false, 60;
      }
    }
    connected, checks := true, retries + 1;
  }

  // ---------------------------------------------------------------- geocoding

  /** The oldest `fetchLocation`: like the later ones, but an empty reply body is
      rejected before parsing. `parsed` is what the parser makes of `payload`. */
  function SerialFetchLocation(connected: bool, status: int, payload: string, parsed: Option<GeocodeDoc>)
    : (l: LocationInfo)
    ensures !connected || status != HttpOk || payload == "" || parsed.None? ==> l == NoLocation
    ensures l.valid ==> parsed.Some? && parsed.value.results.Some? && |parsed.value.results.value| > 0
    ensures l.valid ==> var g := parsed.value.results.value[0];
                        l.displayName == ComposeDisplayName(OrElse(g.name, ""), OrElse(g.admin1, ""), OrElse(g.country, ""))
                        && l.latitude == OrElse(g.latitude, 0.0) && l.longitude == OrElse(g.longitude, 0.0)
  {
    if !connected || status != HttpOk || payload == "" || parsed.None? then NoLocation
    else match parsed.value.results
         case None => NoLocation
         case Some(rs) => if |rs| == 0 then NoLocation else ToLocationInfo(rs[0])
  }

  /** The empty-body guard only repeats what the parser does: an empty document
      does not parse, so the oldest lookup agrees with the modular one. */
  lemma SerialFetchLocationAgrees(connected: bool, status: int, payload: string, parsed: Option<GeocodeDoc>)
    requires payload == "" ==> parsed.None?
    ensures SerialFetchLocation(connected, status, payload, parsed)
            == FetchLocation(connected, HttpReply(status, parsed))
  {
  }
}

=== FILE: storage.dfy ===
/** The configuration store (src/Storage.cpp): four independent JSON documents
    in the flash filesystem. The filesystem is a map from file to its content;
    whether opening a file (or writing it) succeeds is a flag chosen by the
    environment, so every failure path is covered. */
module Storage {
  import opened Common
  import opened Types

  /** /wifi.json, /location.json, /theme.json and /wave_pref.json. */
  datatype FileName = WifiFile | LocationFile | ThemeFile | WavePrefFile

  /** A JSON scalar as ArduinoJson reads it back. */
  datatype Value = Str(s: string) | Bool(b: bool) | Num(n: real)

  /** A file's content: a JSON object that parses, or bytes that do not. */
  datatype Record = Document(fields: map<string, Value>) | Unparsable

  type Store = map<FileName, Record>

  /** The store after a save, and the save's boolean result. */
  datatype Saved = Saved(store: Store, ok: bool)

  /** Every file other than `f` is present in both stores with the same content. */
  predicate SameExcept(a: Store, b: Store, f: FileName)
  {
    forall g | g != f :: (g in a <==> g in b) && (g in a ==> a[g] == b[g])
  }

  /** ArduinoJson's `doc[key] | default` for a string, a bool and a number: the
      default unless the key holds a value of that type. */
  function StringOr(doc: map<string, Value>, key: string, default: string): string
  {
    if key in doc && doc[key].Str? then doc[key].s else default
  }

  function BoolOr(doc: map<string, Value>, key: string, default: bool): bool
  {
    if key in doc && doc[key].Bool? then doc[key].b else default
  }

  function NumberOr(doc: map<string, Value>, key: string, default: real): real
  {
    if key in doc && doc[key].Num? then doc[key].n else default
  }

  /** `SPIFFS.exists`, `SPIFFS.open(.., FILE_READ)` and `deserializeJson`: the
      parsed object, or `None` when any of the three fails. */
  function ReadDocument(store: Store, f: FileName, readOk: bool): (d: Option<map<string, Value>>)
    ensures d.Some? <==> f in store && readOk && store[f].Document?
    ensures d.Some? ==> store[f] == Document(d.value)
  {
    if f in store && readOk then
      match store[f]
      case Document(fields) => Some(fields)
      case Unparsable => None
    else None
  }

  /** `SPIFFS.open(.., FILE_WRITE)` plus `serializeJson`: on success the file is
      replaced by the new document; on failure nothing is committed. */
  function WriteDocument(store: Store, f: FileName, doc: map<string, Value>, writeOk: bool): (r: Saved)
    ensures r.ok == writeOk
    ensures SameExcept(store, r.store, f)
    ensures writeOk ==> f in r.store && r.store[f] == Document(doc)
    ensures !writeOk ==> r.store == store
  {
    if writeOk then Saved(store[f := Document(doc)], true) else Saved(store, false)
  }

  /** `if (SPIFFS.exists(f)) SPIFFS.remove(f)`. */
  function RemoveFile(store: Store, f: FileName): (r: Store)
    ensures f !in r
    ensures SameExcept(store, r, f)
    ensures f !in store ==> r == store
  {
    store - {f}
  }

  // ---------------------------------------------------------------- Wi-Fi

  function LoadWifiCredentials(store: Store, readOk: bool): (c: WifiCredentials)
    ensures c.valid <==> c.ssid != ""
    ensures ReadDocument(store, WifiFile, readOk).None? ==> c == NoCredentials
  {
    match ReadDocument(store, WifiFile, readOk)
    case None => NoCredentials
    case Some(doc) =>
      var ssid := StringOr(doc, "ssid", "");
      WifiCredentials(ssid, StringOr(doc, "password", ""), ssid != "")
  }

  /** Saving writes ssid and password (never the flag); loading recomputes the flag. */
  function SaveWifiCredentials(store: Store, creds: WifiCredentials, writeOk: bool): (r: Saved)
    ensures r.ok == writeOk
    ensures SameExcept(store, r.store, WifiFile)
    ensures !writeOk ==> r.store == store
    ensures writeOk ==> LoadWifiCredentials(r.store, true)
                        == WifiCredentials(creds.ssid, creds.password, creds.ssid != "")
  {
    WriteDocument(store, WifiFile, map["ssid" := Str(creds.ssid), "password" := Str(creds.password)], writeOk)
  }

  function DeleteWifiCredentials(store: Store): (r: Store)
    ensures SameExcept(store, r, WifiFile)
    ensures forall readOk: bool :: LoadWifiCredentials(r, readOk) == NoCredentials
  {
    RemoveFile(store, WifiFile)
  }

  // ---------------------------------------------------------------- theme

  /** Dark (`true`) unless the file holds `"darkMode": false`. */
  function LoadThemePreference(store: Store, readOk: bool): (isDark: bool)
    ensures ReadDocument(store, ThemeFile, readOk).None? ==> isDark
    ensures !isDark ==> ThemeFile in store && store[ThemeFile] == Document(store[ThemeFile].fields)
                        && "darkMode" in store[ThemeFile].fields
                        && store[ThemeFile].fields["darkMode"] == Bool(false)
  {
    match ReadDocument(store, ThemeFile, readOk)
    case None => true
    case Some(doc) => BoolOr(doc, "darkMode", true)
  }

  function SaveThemePreference(store: Store, isDark: bool, writeOk: bool): (r: Saved)
    ensures r.ok == writeOk
    ensures SameExcept(store, r.store, ThemeFile)
    ensures !writeOk ==> r.store == store
    ensures writeOk ==> LoadThemePreference(r.store, true) == isDark
  {
    WriteDocument(store, ThemeFile, map["darkMode" := Bool(isDark)], writeOk)
  }

  // ---------------------------------------------------------------- wave threshold

  const DefaultWaveThreshold: real := 1.0

  /** The threshold in feet; 1.0 on any failure or when the key is missing. */
  function LoadWaveHeightPreference(store: Store, readOk: bool): (t: real)
    ensures ReadDocument(store, WavePrefFile, readOk).None? ==> t == DefaultWaveThreshold
    ensures t != DefaultWaveThreshold ==> WavePrefFile in store && readOk
                                          && store[WavePrefFile].Document?
                                          && "threshold" in store[WavePrefFile].fields
                                          && store[WavePrefFile].fields["threshold"] == Num(t)
  {
    match ReadDocument(store, WavePrefFile, readOk)
    case None => DefaultWaveThreshold
    case Some(doc) => NumberOr(doc, "threshold", DefaultWaveThreshold)
  }

  function SaveWaveHeightPreference(store: Store, threshold: real, writeOk: bool): (r: Saved)
    ensures r.ok == writeOk
    ensures SameExcept(store, r.store, WavePrefFile)
    ensures !writeOk ==> r.store == store
    ensures writeOk ==> LoadWaveHeightPreference(r.store, true) == threshold
  {
    WriteDocument(store, WavePrefFile, map["threshold" := Num(threshold)], writeOk)
  }

  function DeleteWaveHeightPreference(store: Store): (r: Store)
    ensures SameExcept(store, r, WavePrefFile)
    ensures forall readOk: bool :: LoadWaveHeightPreference(r, readOk) == DefaultWaveThreshold
  {
    RemoveFile(store, WavePrefFile)
  }

  // ---------------------------------------------------------------- surf location

  /** A loaded location is valid exactly when it is well formed; any failure
      yields the default (empty, (0, 0), invalid) location. */
  function LoadSurfLocationInfo(store: Store, readOk: bool): (l: LocationInfo)
    ensures l.valid <==> WellFormedLocation(l)
    ensures ReadDocument(store, LocationFile, readOk).None? ==> l == NoLocation
  {
    match ReadDocument(store, LocationFile, readOk)
    case None => NoLocation
    case Some(doc) =>
      var l := LocationInfo(NumberOr(doc, "latitude", 0.0), NumberOr(doc, "longitude", 0.0),
                            StringOr(doc, "location", ""), false);
      l.(valid := WellFormedLocation(l))
  }

  /** An invalid location is refused without touching the store. A valid one is
      written as name and coordinates; it loads back with the flag recomputed, so
      a well-formed location loads back equal. */
  function SaveSurfLocation(store: Store, loc: LocationInfo, writeOk: bool): (r: Saved)
    ensures r.ok <==> loc.valid && writeOk
    ensures SameExcept(store, r.store, LocationFile)
    ensures !r.ok ==> r.store == store
    ensures r.ok ==> LoadSurfLocationInfo(r.store, true) == loc.(valid := WellFormedLocation(loc))
  {
    if !loc.valid then Saved(store, false)
    else
      WriteDocument(store, LocationFile,
                    map["location" := Str(loc.displayName), "latitude" := Num(loc.latitude),
                        "longitude" := Num(loc.longitude)], writeOk)
  }

  function DeleteSurfLocation(store: Store): (r: Store)
    ensures SameExcept(store, r, LocationFile)
    ensures forall readOk: bool :: LoadSurfLocationInfo(r, readOk) == NoLocation
  {
    RemoveFile(store, LocationFile)
  }

  /** A saved well-formed location loads back equal. */
  lemma SurfLocationRoundTrip(store: Store, loc: LocationInfo)
    requires loc.valid && WellFormedLocation(loc)
    ensures SaveSurfLocation(store, loc, true).ok
    ensures LoadSurfLocationInfo(SaveSurfLocation(store, loc, true).store, true) == loc
  {
  }

  /** Deleting twice is deleting once, and a delete only affects its own kind:
      the other three loads see the same store as before. */
  lemma DeletesAreIdempotentAndLocal(store: Store, readOk: bool)
    ensures DeleteWifiCredentials(DeleteWifiCredentials(store)) == DeleteWifiCredentials(store)
    ensures DeleteSurfLocation(DeleteSurfLocation(store)) == DeleteSurfLocation(store)
    ensures DeleteWaveHeightPreference(DeleteWaveHeightPreference(store)) == DeleteWaveHeightPreference(store)
    ensures LoadThemePreference(DeleteWifiCredentials(store), readOk) == LoadThemePreference(store, readOk)
    ensures LoadSurfLocationInfo(DeleteWifiCredentials(store), readOk) == LoadSurfLocationInfo(store, readOk)
    ensures LoadWaveHeightPreference(DeleteWifiCredentials(store), readOk) == LoadWaveHeightPreference(store, readOk)
    ensures LoadWifiCredentials(DeleteSurfLocation(store), readOk) == LoadWifiCredentials(store, readOk)
    ensures LoadThemePreference(DeleteSurfLocation(store), readOk) == LoadThemePreference(store, readOk)
    ensures LoadWaveHeightPreference(DeleteSurfLocation(store), readOk) == LoadWaveHeightPreference(store, readOk)
    ensures LoadWifiCredentials(DeleteWaveHeightPreference(store), readOk) == LoadWifiCredentials(store, readOk)
    ensures LoadThemePreference(DeleteWaveHeightPreference(store), readOk) == LoadThemePreference(store, readOk)
    ensures LoadSurfLocationInfo(DeleteWaveHeightPreference(store), readOk) == LoadSurfLocationInfo(store, readOk)
  {
  }
}

=== FILE: theming.dfy ===
/** The colour theme (src/Theme.cpp): two fixed RGB565 palettes and the
    inversion that compensates for the panel's hardware colour inversion. */
module Theming {

  /** An RGB565 colour, `uint16_t` in the firmware. */
  type Color = bv16

  /** The named colours of the graphics library, as standard RGB565 values. */
  const Black: Color := 0x0000
  const White: Color := 0xFFFF
  const Cyan: Color := 0x07FF
  const Yellow: Color := 0xFFE0
  const Blue: Color := 0x001F
  const Green: Color := 0x07E0
  const Red: Color := 0xF800

  /** `Theme` of include/Types.h: the sixteen colours of the user interface. */
  datatype Theme = Theme(background: Color, text: Color, textSecondary: Color, accent: Color,
                         buttonPrimary: Color, buttonSecondary: Color, buttonDanger: Color,
                         buttonWarning: Color, buttonKeys: Color, buttonList: Color, border: Color,
                         success: Color, error: Color, cloudColor: Color,
                         periodDirTextColor: Color, periodDirNumberColor: Color)

  const DarkPalette: Theme :=
    Theme(Black, White, Cyan, Yellow, 0x2C40, 0x8000, 0x8000, 0xCA00, 0x2104, 0x4A49,
          Black, 0x2C40, 0x7FFF, 0x4DFF, Cyan, 0x65C8)

  const LightPalette: Theme :=
    Theme(White, Black, Blue, 0xFE80, Green, Red, Red, 0xFD20, 0xCE79, 0xAD55,
          Black, Green, 0x07FF, 0x0016, 0xCA00, 0x2400)

  /** `invertColor`: `color ^ 0xFFFF`, the complement 0xFFFF - color (the
      subtraction cannot wrap, 0xFFFF being the largest colour): the two share no
      bit and together cover all sixteen. */
  function InvertColor(c: Color): (r: Color)
    ensures r == 0xFFFF - c
    ensures r & c == 0 && r | c == 0xFFFF
  {
    c ^ 0xFFFF
  }

  lemma InvertColorInvolution(c: Color)
    ensures InvertColor(InvertColor(c)) == c
  {
  }

  /** Inversion of every one of the sixteen fields. */
  function InvertTheme(t: Theme): (r: Theme)
    ensures r.background == 0xFFFF - t.background
    ensures r.periodDirNumberColor == 0xFFFF - t.periodDirNumberColor
  {
    Theme(InvertColor(t.background), InvertColor(t.text), InvertColor(t.textSecondary),
          InvertColor(t.accent), InvertColor(t.buttonPrimary), InvertColor(t.buttonSecondary),
          InvertColor(t.buttonDanger), InvertColor(t.buttonWarning), InvertColor(t.buttonKeys),
          InvertColor(t.buttonList), InvertColor(t.border), InvertColor(t.success),
          InvertColor(t.error), InvertColor(t.cloudColor), InvertColor(t.periodDirTextColor),
          InvertColor(t.periodDirNumberColor))
  }

  /** Inverting a whole theme twice gives it back. */
  lemma InvertThemeInvolution(t: Theme)
    ensures InvertTheme(InvertTheme(t)) == t
  {
    InvertColorInvolution(t.background);
    InvertColorInvolution(t.text);
    InvertColorInvolution(t.textSecondary);
    InvertColorInvolution(t.accent);
    InvertColorInvolution(t.buttonPrimary);
    InvertColorInvolution(t.buttonSecondary);
    InvertColorInvolution(t.buttonDanger);
    InvertColorInvolution(t.buttonWarning);
    InvertColorInvolution(t.buttonKeys);
    InvertColorInvolution(t.buttonList);
    InvertColorInvolution(t.border);
    InvertColorInvolution(t.success);
    InvertColorInvolution(t.error);
    InvertColorInvolution(t.cloudColor);
    InvertColorInvolution(t.periodDirTextColor);
    InvertColorInvolution(t.periodDirNumberColor);
  }

  /** The theme `applyTheme` installs: it is a function of `darkMode` alone, and
      un-inverting it gives back exactly the selected palette. */
  function ApplyTheme(darkMode: bool): (t: Theme)
    ensures InvertTheme(t) == (if darkMode then DarkPalette else LightPalette)
  {
    var palette := if darkMode then DarkPalette else LightPalette;
    InvertThemeInvolution(palette);
    InvertTheme(palette)
  }

  /** The dark palette is installed iff `darkMode` holds: the two installed
      themes differ (already in their background colour). */
  lemma ApplyThemeSelectsByMode(darkMode: bool)
    ensures ApplyTheme(darkMode) == ApplyTheme(true) <==> darkMode
    ensures ApplyTheme(darkMode).background == (if darkMode then White else Black)
  {
  }

  /** The mode flag and the installed theme, as the globals `darkMode` and
      `currentTheme`. At boot `currentTheme` is the dark palette, not yet inverted. */
  datatype ThemeState = ThemeState(darkMode: bool, current: Theme)

  const BootTheme: ThemeState := ThemeState(true, DarkPalette)

  /** `applyTheme()` on the globals. */
  function Apply(s: ThemeState): (r: ThemeState)
    ensures r.darkMode == s.darkMode
    ensures InvertTheme(r.current) == (if s.darkMode then DarkPalette else LightPalette)
  {
    s.(current := ApplyTheme(s.darkMode))
  }

  /** The theme button: flip `darkMode` and re-apply. */
  function Toggle(s: ThemeState): (r: ThemeState)
    ensures r.darkMode == !s.darkMode
    ensures InvertTheme(r.current) == (if s.darkMode then LightPalette else DarkPalette)
  {
    Apply(s.(darkMode := !s.darkMode))
  }

  /** Applying twice is applying once; toggling twice from an applied state
      gives back the original state. */
  lemma ApplyIdempotentToggleInvolution(s: ThemeState)
    ensures Apply(Apply(s)) == Apply(s)
    ensures s == Apply(s) ==> Toggle(Toggle(s)) == s
  {
  }

  /** At boot the theme is not yet applied: the first `applyTheme()` changes it. */
  lemma BootThemeNotApplied()
    ensures Apply(BootTheme) != BootTheme
    ensures Apply(BootTheme).current == ApplyTheme(true)
  {
    ApplyThemeSelectsByMode(true);
    assert BootTheme.current.background == Black;
    assert Apply(BootTheme).current.background != BootTheme.current.background;
  }
}

=== FILE: types.dfy ===
/** The records shared by every part of the firmware (include/Types.h) and the
    compiled-in configuration (src/Config.cpp). Floats are modelled as reals. */
module Types {

  /** A geocoded place. (0, 0) is the firmware's sentinel for "no coordinates". */
  datatype LocationInfo = LocationInfo(latitude: real, longitude: real, displayName: string, valid: bool)

  /** The next-hour marine forecast: metres, seconds, degrees, ISO-8601 hour. */
  datatype SurfForecast = SurfForecast(waveHeight: real, wavePeriod: real, waveDirection: real,
                                       timeLabel: string, valid: bool)

  datatype WifiCredentials = WifiCredentials(ssid: string, password: string, valid: bool)

  /** Default-constructed values: all zero, empty and invalid. */
  const NoLocation: LocationInfo := LocationInfo(0.0, 0.0, "", false)
  const NoForecast: SurfForecast := SurfForecast(0.0, 0.0, 0.0, "", false)
  const NoCredentials: WifiCredentials := WifiCredentials("", "", false)

  /** The two fallback spots offered by the "Default" button. */
  const DefaultLocation1: LocationInfo := LocationInfo(30.3970, -81.4276, "Mayport Poles", true)
  const DefaultLocation2: LocationInfo := LocationInfo(30.3268, -81.3836, "Jax Beach Pier", true)

  /** The validity rule the store applies to a loaded location: a name and
      coordinates other than the (0, 0) sentinel. */
  predicate WellFormedLocation(l: LocationInfo)
  {
    l.displayName != "" && (l.latitude != 0.0 || l.longitude != 0.0)
  }
}

=== FILE: urlcodec.dfy ===
/** `urlEncode` (src/Network.cpp, src/main.cpp, main.cpp): percent-encoding of a
    geocoding query as in sections 2.1 and 2.3 of RFC 3986, with a space written
    as "%20". Arduino `String`s are byte strings, so the codec works on bytes. */
module UrlCodec {

  newtype byte = b: int | 0 <= b < 256

  const Percent: byte := 0x25
  const Space: byte := 0x20

  /** The lookup table "0123456789ABCDEF". */
  const Hex: seq<byte> := [0x30, 0x31, 0x32, 0x33, 0x34, 0x35, 0x36, 0x37,
                           0x38, 0x39, 0x41, 0x42, 0x43, 0x44, 0x45, 0x46]

  /** `isalnum` in the C locale: ASCII digits and letters only. */
  predicate IsAlnum(b: byte)
  {
    (0x30 <= b <= 0x39) || (0x41 <= b <= 0x5A) || (0x61 <= b <= 0x7A)
  }

  /** The unreserved set of RFC 3986: letters, digits, '-', '.', '_', '~'. */
  predicate IsUnreserved(b: byte)
  {
    IsAlnum(b) || b == 0x2D || b == 0x5F || b == 0x2E || b == 0x7E
  }

  predicate IsUpperHex(b: byte)
  {
    (0x30 <= b <= 0x39) || (0x41 <= b <= 0x46)
  }

  /** The value of a byte read as a (signed) `char`, as on the ESP32 toolchain. */
  function SignedChar(b: byte): int
  {
    if b >= 0x80 then b as int - 0x100 else b as int
  }

  /** `(c >> 4) & 0x0F`: an arithmetic shift is a floor division by 16, and the
      mask is the non-negative remainder modulo 16. */
  function HighNibble(c: int): int
  {
    (c / 16) % 16
  }

  /** `c & 0x0F`. */
  function LowNibble(c: int): int
  {
    c % 16
  }

  /** Whatever the sign of the `char`, the shifts pick the byte's two hex digits. */
  lemma SignedCharNibbles(b: byte)
    ensures HighNibble(SignedChar(b)) == b as int / 16
    ensures LowNibble(SignedChar(b)) == b as int % 16
  {
    var n := b as int;
    if n >= 0x80 {
      assert (n - 0x100) / 16 == n / 16 - 16;
      assert (n - 0x100) % 16 == n % 16;
      assert (n / 16 - 16) % 16 == n / 16;
    }
  }

  /** The bytes an encoding can contain. */
  predicate InEncodedAlphabet(b: byte)
  {
    IsUnreserved(b) || b == Percent || IsUpperHex(b)
  }

  lemma HexIsUpperHex(n: int)
    requires 0 <= n < 16
    ensures IsUpperHex(Hex[n])
  {
  }

  /** The encoding of one input byte: itself, "%20", or '%' and two hex digits. */
  function EncodeByte(b: byte): (r: seq<byte>)
    ensures |r| == 1 <==> IsUnreserved(b)
    ensures |r| == 1 || |r| == 3
    ensures IsUnreserved(b) ==> r == [b]
    ensures b == Space ==> r == [Percent, 0x32, 0x30]
    ensures !IsUnreserved(b) ==> r[0] == Percent && r[1] == Hex[b as int / 16] && r[2] == Hex[b as int % 16]
    ensures forall i :: 0 <= i < |r| ==> InEncodedAlphabet(r[i])
  {
    if IsUnreserved(b) then [b]
    else if b == Space then [Percent, 0x32, 0x30]
    else
      SignedCharNibbles(b);
      HexIsUpperHex(b as int / 16);
      HexIsUpperHex(b as int % 16);
      [Percent, Hex[HighNibble(SignedChar(b))], Hex[LowNibble(SignedChar(b))]]
  }

  /** `urlEncode`: the concatenation of the encodings of the input bytes. */
  function UrlEncode(s: seq<byte>): (r: seq<byte>)
    ensures |s| <= |r| <= 3 * |s|
    ensures forall i :: 0 <= i < |r| ==> InEncodedAlphabet(r[i])
  {
    if s == [] then [] else EncodeByte(s[0]) + UrlEncode(s[1..])
  }

  /** The loop of `urlEncode` as written: append each byte's encoding in turn. */
  method UrlEncodeLoop(value: seq<byte>) returns (encoded: seq<byte>)
    ensures encoded == UrlEncode(value)
  {
    encoded := [];
    var i := 0;
    while i < |value|
      invariant 0 <= i <= |value|
      invariant encoded == UrlEncode(value[..i])
    {
      UrlEncodeAppend(value[..i], [value[i]]);
      assert value[..i + 1] == value[..i] + [value[i]];
      encoded := encoded + EncodeByte(value[i]);
      i := i + 1;
    }
    assert value[..i] == value;
  }

  /** Encoding works byte by byte, so it distributes over concatenation. */
  lemma {:induction false} UrlEncodeAppend(a: seq<byte>, b: seq<byte>)
    ensures UrlEncode(a + b) == UrlEncode(a) + UrlEncode(b)
  {
    if a == [] {
      assert a + b == b;
    } else {
      assert (a + b)[1..] == a[1..] + b;
      assert (a + b)[0] == a[0];
      UrlEncodeAppend(a[1..], b);
    }
  }

  /** An input made only of unreserved bytes is its own encoding. */
  lemma {:induction false} UrlEncodeUnreservedIdentity(s: seq<byte>)
    requires forall i :: 0 <= i < |s| ==> IsUnreserved(s[i])
    ensures UrlEncode(s) == s
  {
    if s != [] {
      UrlEncodeUnreservedIdentity(s[1..]);
      assert s == [s[0]] + s[1..];
    }
  }

  /** The encoded query can be placed in a URL query string without changing its
      structure: it never holds '&', '=', '+', '#', '?' or a space. */
  lemma EncodedIsQuerySafe(s: seq<byte>, i: int)
    requires 0 <= i < |UrlEncode(s)|
    ensures UrlEncode(s)[i] !in {0x26 as byte, 0x3D, 0x2B, 0x23, 0x3F, Space}
  {
  }

  function HexValue(b: byte): (n: int)
    requires IsUpperHex(b)
    ensures 0 <= n < 16 && Hex[n] == b
  {
    if b <= 0x39 then b as int - 0x30 else b as int - 0x41 + 10
  }

  lemma HexInjective(m: int, n: int)
    requires 0 <= m < 16 && 0 <= n < 16 && Hex[m] == Hex[n]
    ensures m == n
  {
  }

  lemma HexValueOfHex(n: int)
    requires 0 <= n < 16
    ensures IsUpperHex(Hex[n]) && HexValue(Hex[n]) == n
  {
    HexInjective(HexValue(Hex[n]), n);
  }

  /** A reference decoder: "%XX" with uppercase hex digits stands for that byte,
      every other byte for itself. */
  function UrlDecode(t: seq<byte>): seq<byte>
  {
    if t == [] then []
    else if |t| >= 3 && t[0] == Percent && IsUpperHex(t[1]) && IsUpperHex(t[2]) then
      [(16 * HexValue(t[1]) + HexValue(t[2])) as byte] + UrlDecode(t[3..])
    else [t[0]] + UrlDecode(t[1..])
  }

  /** One decoding step on an escape and on a plain byte. */
  lemma DecodeEscape(hi: byte, lo: byte, rest: seq<byte>)
    requires IsUpperHex(hi) && IsUpperHex(lo)
    ensures UrlDecode([Percent, hi, lo] + rest) == [(16 * HexValue(hi) + HexValue(lo)) as byte] + UrlDecode(rest)
  {
    assert ([Percent, hi, lo] + rest)[3..] == rest;
  }

  lemma DecodePlain(b: byte, rest: seq<byte>)
    requires b != Percent
    ensures UrlDecode([b] + rest) == [b] + UrlDecode(rest)
  {
    assert ([b] + rest)[1..] == rest;
  }

  lemma DecodeEncodeByte(b: byte, rest: seq<byte>)
    ensures UrlDecode(EncodeByte(b) + rest) == [b] + UrlDecode(rest)
  {
    var e := EncodeByte(b);
    if IsUnreserved(b) {
      DecodePlain(b, rest);
    } else {
      var hi, lo := b as int / 16, b as int % 16;
      assert e == [Percent, Hex[hi], Hex[lo]];
      HexValueOfHex(hi);
      HexValueOfHex(lo);
      DecodeEscape(Hex[hi], Hex[lo], rest);
      assert 16 * hi + lo == b as int;
    }
  }

  /** Decoding undoes encoding, so distinct queries never share an encoding. */
  lemma {:induction false} UrlDecodeEncode(s: seq<byte>)
    ensures UrlDecode(UrlEncode(s)) == s
  {
    if s != [] {
      DecodeEncodeByte(s[0], UrlEncode(s[1..]));
      UrlDecodeEncode(s[1..]);
      assert s == [s[0]] + s[1..];
    }
  }
}

=== FILE: wizards.dfy ===
/** The blocking setup screens of src/TouchUI.cpp, each as a pure step over
    touches: Wi-Fi setup, the list and default-location pickers, the wave
    threshold stepper and the surf-location setup. A screen that opens another
    screen (the keyboard, a picker) or the network receives that screen's answer
    as an input of the step. Labels are byte strings, as everywhere in the
    model, so their 35- and 38-element cuts are the firmware's byte cuts. */
module Wizards {
  import opened Common
  import opened Geometry
  import opened Types
  import opened Storage

  // ---------------------------------------------------------------- Wi-Fi setup

  const SsidButton: Rect := Rect(12, 64, 296, 36)
  const PassButton: Rect := Rect(12, 116, 296, 36)
  const ConnectButton: Rect := Rect(12, 172, 296, 44)

  /** The outcome of `runWifiSetupTouch`: the returned credentials and the store
      after the (unchecked) save. */
  datatype WifiSetupDone = WifiSetupDone(creds: WifiCredentials, store: Store)

  /** One touch of `runWifiSetupTouch`. `entered` is the keyboard's answer when
      the SSID or password button opens it (it starts from the current value). */
  function WifiSetupStep(creds: WifiCredentials, p: TouchPoint, entered: string, store: Store, writeOk: bool)
    : (r: Step<WifiCredentials, WifiSetupDone>)
    ensures r.Done? <==> p.pressed && !Hits(Point(p.x, p.y), SsidButton) && !Hits(Point(p.x, p.y), PassButton)
                         && Hits(Point(p.x, p.y), ConnectButton) && creds.ssid != ""
    ensures r.Done? ==> r.result.creds == creds.(valid := true) && r.result.creds.ssid != ""
    ensures r.Done? && writeOk ==> LoadWifiCredentials(r.result.store, true) == r.result.creds
    ensures r.Done? && !writeOk ==> r.result.store == store
    ensures r.Continue? ==> r.state.valid == creds.valid
                            && (r.state.ssid == creds.ssid || r.state.password == creds.password)
    ensures p.pressed && Hits(Point(p.x, p.y), SsidButton) ==> r == Continue(creds.(ssid := entered))
    ensures p.pressed && !Hits(Point(p.x, p.y), SsidButton) && Hits(Point(p.x, p.y), PassButton) ==>
              r == Continue(creds.(password := entered))
  {
    if !p.pressed then Continue(creds)
    else if PointInRect(p.x, p.y, SsidButton) then Continue(creds.(ssid := entered))
    else if PointInRect(p.x, p.y, PassButton) then Continue(creds.(password := entered))
    else if PointInRect(p.x, p.y, ConnectButton) && creds.ssid != "" then
      var done := creds.(valid := true);
      Done(WifiSetupDone(done, SaveWifiCredentials(store, done, writeOk).store))
    else Continue(creds)
  }

  function WifiSetupScreen(store: Store, writeOk: bool)
    : ((WifiCredentials, (TouchPoint, string)) -> Step<WifiCredentials, WifiSetupDone>)
  {
    (c: WifiCredentials, i: (TouchPoint, string)) => WifiSetupStep(c, i.0, i.1, store, writeOk)
  }

  /** Whatever the touches, the Wi-Fi setup returns only valid credentials with a
      non-empty SSID, starting from the empty credentials. */
  lemma WifiSetupReturnsUsableCredentials(store: Store, writeOk: bool, inputs: seq<(TouchPoint, string)>)
    ensures Run(WifiSetupScreen(store, writeOk), NoCredentials, inputs).Done? ==>
              var c := Run(WifiSetupScreen(store, writeOk), NoCredentials, inputs).result.creds;
              c.valid && c.ssid != ""
  {
    var inv := (c: WifiCredentials) => true;
    var ok := (i: (TouchPoint, string)) => true;
    var post := (d: WifiSetupDone) => d.creds.valid && d.creds.ssid != "";
    RunKeeps(WifiSetupScreen(store, writeOk), ok, inv, post, NoCredentials, inputs);
  }

  // ---------------------------------------------------------------- list picker

  /** At most seven rows are offered. */
  const ListRows: int := 7

  function Shown(n: nat): (k: nat)
    ensures k <= n && k <= ListRows && (k == n || k == ListRows)
  {
    if n < ListRows then n else ListRows
  }

  /** Row `i`: 32 pixels high every 36 pixels from y = 40, full width less 8-pixel margins. */
  function ListButton(i: int): Rect
  {
    Rect(8, 40 + 36 * i, ScreenWidth - 16, 32)
  }

  const ListCancel: Rect := Rect(8, 40 + 7 * 36, ScreenWidth - 16, 30)

  /** The label of a row: the display name cut to 35 characters plus "...". */
  function ListLabel(name: string): (l: string)
    ensures |l| <= 38
    ensures |name| <= 35 ==> l == name
    ensures |name| > 35 ==> l == name[..35] + "..."
  {
    Abbreviate(name, 35)
  }

  /** The first row from `i` on, among the first `Shown(n)`, that holds the point. */
  function ListHit(n: nat, x: int, y: int, i: nat): (r: Option<nat>)
    ensures r.Some? ==> i <= r.value < Shown(n) && PointInRect(x, y, ListButton(r.value))
    ensures r.None? <==> forall j :: i <= j < Shown(n) ==> !PointInRect(x, y, ListButton(j))
    decreases Shown(n) - i
  {
    if i >= Shown(n) then None
    else if PointInRect(x, y, ListButton(i)) then Some(i)
    else ListHit(n, x, y, i + 1)
  }

  /** One touch of `selectLocationFromList` over `n` matches: a row's index,
      -1 for Cancel, or `None` to keep waiting. */
  function ListTouch(n: nat, p: TouchPoint): (r: Option<int>)
    ensures r.Some? ==> r.value == -1 || 0 <= r.value < Shown(n)
    ensures !p.pressed ==> r.None?
  {
    if !p.pressed then None
    else match ListHit(n, p.x, p.y, 0)
         case Some(i) => Some(i as int)
         case None => if PointInRect(p.x, p.y, ListCancel) then Some(-1) else None
  }

  /** `selectLocationFromList`: -1 at once for an empty list; otherwise the answer
      of the first decisive touch, `None` when the touches run out first. */
  function SelectLocationFromList(n: nat, touches: seq<TouchPoint>): (r: Option<int>)
    ensures n == 0 ==> r == Some(-1)
    ensures r.Some? ==> r.value == -1 || 0 <= r.value < Shown(n)
    ensures r.Some? && r.value >= 0 ==> r.value < n && r.value < ListRows
    decreases |touches|
  {
    if n == 0 then Some(-1)
    else if touches == [] then None
    else match ListTouch(n, touches[0])
         case Some(i) => Some(i)
         case None => SelectLocationFromList(n, touches[1..])
  }

  /** Rows are 36 pixels apart and 32 high, and Cancel is below the seventh row, so
      a touch on a shown row selects exactly that row. */
  lemma ListRowSelectsItself(n: nat, i: nat, p: TouchPoint)
    requires i < Shown(n) && p.pressed && PointInRect(p.x, p.y, ListButton(i))
    ensures ListTouch(n, p) == Some(i as int)
  {
    assert forall j :: 0 <= j < i ==> !PointInRect(p.x, p.y, ListButton(j));
    ListHitFinds(n, p.x, p.y, 0, i);
  }

  lemma {:induction false} ListHitFinds(n: nat, x: int, y: int, i0: nat, i: nat)
    requires i0 <= i < Shown(n) && PointInRect(x, y, ListButton(i))
    requires forall j :: i0 <= j < i ==> !PointInRect(x, y, ListButton(j))
    ensures ListHit(n, x, y, i0) == Some(i)
    decreases i - i0
  {
    if i0 < i {
      ListHitFinds(n, x, y, i0 + 1, i);
    }
  }

  lemma CancelIsBelowTheRows(n: nat, p: TouchPoint)
    requires n > 0 && p.pressed && PointInRect(p.x, p.y, ListCancel)
    ensures SelectLocationFromList(n, [p]) == Some(-1)
  {
    assert ListHit(n, p.x, p.y, 0).None?;
  }

  // ---------------------------------------------------------------- default picker

  const DefaultButton1: Rect := Rect(10, 70, 300, 70)
  const DefaultButton2: Rect := Rect(10, 160, 300, 70)
  const DefaultCancel: Rect := Rect(10, 250, 300, 40)

  /** One touch of `selectDefaultLocation`: 1 or 2 for a spot, 0 for Cancel,
      `None` to keep waiting. */
  function DefaultTouch(p: TouchPoint): (r: Option<int>)
    ensures r.Some? ==> 0 <= r.value <= 2
    ensures r == Some(1) <==> p.pressed && Hits(Point(p.x, p.y), DefaultButton1)
    ensures r == Some(2) <==> p.pressed && Hits(Point(p.x, p.y), DefaultButton2)
    ensures r == Some(0) <==> p.pressed && Hits(Point(p.x, p.y), DefaultCancel)
  {
    if !p.pressed then None
    else if PointInRect(p.x, p.y, DefaultButton1) then Some(1)
    else if PointInRect(p.x, p.y, DefaultButton2) then Some(2)
    else if PointInRect(p.x, p.y, DefaultCancel) then Some(0)
    else None
  }

  /** The spot behind a default choice. */
  function DefaultSpot(choice: int): (l: Option<LocationInfo>)
    ensures l.Some? <==> choice == 1 || choice == 2
    ensures l.Some? ==> l.value.valid && WellFormedLocation(l.value)
    ensures choice == 1 ==> l == Some(DefaultLocation1)
    ensures choice == 2 ==> l == Some(DefaultLocation2)
  {
    if choice == 1 then Some(DefaultLocation1)
    else if choice == 2 then Some(DefaultLocation2)
    else None
  }

  // ---------------------------------------------------------------- wave threshold

  const DecButton: Rect := Rect(40, 190, 60, 45)
  const IncButton: Rect := Rect(220, 190, 60, 45)
  const WaveSaveButton: Rect := Rect(20, 250, 140, 50)
  const WaveSkipButton: Rect := Rect(180, 250, 140, 50)

  /** The threshold in half-feet: 0.5 ft to 10 ft is 1 to 20, starting at 1 ft. */
  const MinHalfFeet: int := 1
  const MaxHalfFeet: int := 20
  const StartHalfFeet: int := 2

  predicate InWaveRange(h: int)
  {
    MinHalfFeet <= h <= MaxHalfFeet
  }

  function Feet(h: int): real
  {
    h as real / 2.0
  }

  lemma FeetRange(h: int)
    requires InWaveRange(h)
    ensures 0.5 <= Feet(h) <= 10.0
    ensures Feet(StartHalfFeet) == 1.0
  {
  }

  /** What the wave screen returns: the threshold, and whether Save (rather than
      the "3 ft" button) asked for it to be stored. */
  datatype WaveChoice = WaveChoice(halfFeet: int, persist: bool)

  /** One touch of `runWaveHeightSetupTouch`: "-" and "+" move half a foot within
      the range; Save and "3 ft" both return the current threshold, only Save
      stores it. */
  function WaveStep(h: int, p: TouchPoint): (r: Step<int, WaveChoice>)
    ensures r.Done? ==> r.result.halfFeet == h
    ensures r.Done? && r.result.persist <==> p.pressed && Hits(Point(p.x, p.y), WaveSaveButton)
    ensures InWaveRange(h) && r.Continue? ==> InWaveRange(r.state) && -1 <= r.state - h <= 1
    ensures InWaveRange(h) && p.pressed && Hits(Point(p.x, p.y), DecButton) ==> r == Continue(if h > MinHalfFeet then h - 1 else h)
    ensures InWaveRange(h) && p.pressed && Hits(Point(p.x, p.y), IncButton) ==> r == Continue(if h < MaxHalfFeet then h + 1 else h)
    ensures p.pressed && Hits(Point(p.x, p.y), WaveSaveButton) ==> r == Done(WaveChoice(h, true))
    ensures p.pressed && Hits(Point(p.x, p.y), WaveSkipButton) ==> r == Done(WaveChoice(h, false))
    ensures r.Done? <==> p.pressed && (Hits(Point(p.x, p.y), WaveSaveButton) || Hits(Point(p.x, p.y), WaveSkipButton))
  {
    if !p.pressed then Continue(h)
    else if PointInRect(p.x, p.y, DecButton) then Continue(if h - 1 > MinHalfFeet then h - 1 else MinHalfFeet)
    else if PointInRect(p.x, p.y, IncButton) then Continue(if h + 1 < MaxHalfFeet then h + 1 else MaxHalfFeet)
    else if PointInRect(p.x, p.y, WaveSaveButton) then Done(WaveChoice(h, true))
    else if PointInRect(p.x, p.y, WaveSkipButton) then Done(WaveChoice(h, false))
    else Continue(h)
  }

  function WaveScreen(): (int, TouchPoint) -> Step<int, WaveChoice>
  {
    (h: int, p: TouchPoint) => WaveStep(h, p)
  }

  /** From the start value, every threshold the screen returns lies in
      [0.5 ft, 10 ft]. */
  lemma WaveScreenStaysInRange(touches: seq<TouchPoint>)
    ensures match Run(WaveScreen(), StartHalfFeet, touches)
            case Continue(h) => InWaveRange(h)
            case Done(c) => InWaveRange(c.halfFeet) && 0.5 <= Feet(c.halfFeet) <= 10.0
  {
    var ok := (p: TouchPoint) => true;
    var post := (c: WaveChoice) => InWaveRange(c.halfFeet) && 0.5 <= Feet(c.halfFeet) <= 10.0;
    forall h: int, p: TouchPoint | InWaveRange(h) && ok(p)
      ensures match WaveScreen()(h, p)
              case Continue(next) => InWaveRange(next)
              case Done(c) => post(c)
    {
      if WaveStep(h, p).Done? {
        FeetRange(h);
      }
    }
    RunKeeps(WaveScreen(), ok, InWaveRange, post, StartHalfFeet, touches);
  }

  /** "+" then "3 ft" returns 1.5 ft, not 3 ft, and stores nothing. */
  lemma SkipReturnsCurrentNotThree()
    ensures Run(WaveScreen(), StartHalfFeet, [TouchPoint(250, 200, true), TouchPoint(200, 260, true)])
            == Done(WaveChoice(3, false))
  {
    var touches := [TouchPoint(250, 200, true), TouchPoint(200, 260, true)];
    assert WaveStep(StartHalfFeet, touches[0]) == Continue(3);
    assert touches[1..] == [TouchPoint(200, 260, true)];
  }

  /** Apply the screen's answer: the threshold in feet, and the store after the
      Save button's (unchecked) save. */
  function CommitWave(c: WaveChoice, store: Store, writeOk: bool): (r: (real, Store))
    ensures r.0 == Feet(c.halfFeet)
    ensures c.persist && writeOk ==> LoadWaveHeightPreference(r.1, true) == r.0
    ensures !c.persist || !writeOk ==> r.1 == store
    ensures SameExcept(store, r.1, WavePrefFile)
  {
    if c.persist then (Feet(c.halfFeet), SaveWaveHeightPreference(store, Feet(c.halfFeet), writeOk).store)
    else (Feet(c.halfFeet), store)
  }

  // ---------------------------------------------------------------- surf location

  const LocationButton: Rect := Rect(12, 76, 296, 44)
  const LocationSave: Rect := Rect(12, 140, 144, 44)
  const LocationDefault: Rect := Rect(164, 140, 144, 44)

  /** The screen's text (`location`) and the caller's `cachedLocation`. */
  datatype LocationSetup = LocationSetup(location: string, cached: LocationInfo)

  /** The answers the screen receives during one touch: the keyboard's text, the
      matches the geocoder returns for it, the list picker's index and the
      default picker's choice. Only the ones the touch asks for are used. */
  datatype LocationAnswers = LocationAnswers(searchTerm: string, matches: seq<LocationInfo>, picked: int, choice: int)

  /** The text of the location button. */
  function LocationButtonText(location: string): (t: string)
    ensures location == "" ==> t == "<tap to set>"
    ensures location != "" ==> |t| <= 41 && (|location| <= 38 ==> t == location)
    ensures |location| > 38 ==> t == location[..38] + "..."
  {
    if location == "" then "<tap to set>" else Abbreviate(location, 38)
  }

  /** One touch of `runLocationSetupTouch`. `Done` carries the location that is
      saved and whose name is returned. */
  function LocationSetupStep(s: LocationSetup, p: TouchPoint, a: LocationAnswers): (r: Step<LocationSetup, LocationInfo>)
    ensures !p.pressed ==> r == Continue(s)
    ensures r.Continue? ==> r.state == s
                            || (r.state.cached in a.matches && r.state.location == r.state.cached.displayName)
    ensures p.pressed && Hits(Point(p.x, p.y), LocationButton) && a.searchTerm != "" && a.matches == [] ==> r == Continue(s)
    ensures p.pressed && Hits(Point(p.x, p.y), LocationButton) && a.searchTerm != "" && |a.matches| == 1 ==>
              r == Continue(LocationSetup(a.matches[0].displayName, a.matches[0]))
    ensures p.pressed && Hits(Point(p.x, p.y), LocationButton) && a.searchTerm != "" && |a.matches| > 1 ==>
              r == (if 0 <= a.picked < |a.matches|
                    then Continue(LocationSetup(a.matches[a.picked].displayName, a.matches[a.picked]))
                    else Continue(s))
    ensures p.pressed && Hits(Point(p.x, p.y), LocationSave) && s.location != "" ==>
              r == (if s.cached.valid then Done(s.cached) else Continue(s))
    ensures p.pressed && Hits(Point(p.x, p.y), LocationDefault) ==>
              r == (match DefaultSpot(a.choice) case Some(l) => Done(l) case None => Continue(s))
    ensures r.Done? ==> r.result.valid
                        && ((r.result == s.cached && s.location != "")
                            || r.result == DefaultLocation1 || r.result == DefaultLocation2)
  {
    if !p.pressed then Continue(s)
    else if PointInRect(p.x, p.y, LocationButton) then
      if a.searchTerm == "" || a.matches == [] then Continue(s)
      else if |a.matches| == 1 then Continue(LocationSetup(a.matches[0].displayName, a.matches[0]))
      else if 0 <= a.picked < |a.matches| then
        Continue(LocationSetup(a.matches[a.picked].displayName, a.matches[a.picked]))
      else Continue(s)
    else if PointInRect(p.x, p.y, LocationSave) && s.location != "" then
      if s.cached.valid then Done(s.cached) else Continue(s)
    else if PointInRect(p.x, p.y, LocationDefault) then
      match DefaultSpot(a.choice)
      case Some(spot) => Done(spot)
      case None => Continue(s)
    else Continue(s)
  }

  /** Whenever the text is non-empty it is the name of a valid cached location. */
  predicate SetupConsistent(s: LocationSetup)
  {
    s.location != "" ==> s.cached.valid && s.location == s.cached.displayName
  }

  /** Answers as the geocoder gives them: every match is valid. */
  predicate MatchesValid(a: LocationAnswers)
  {
    forall i :: 0 <= i < |a.matches| ==> a.matches[i].valid
  }

  /** A step keeps the text consistent with the cached location, and what it
      returns is valid and named. */
  lemma LocationSetupStepKeeps(s: LocationSetup, p: TouchPoint, a: LocationAnswers)
    requires SetupConsistent(s) && MatchesValid(a)
    ensures match LocationSetupStep(s, p, a)
            case Continue(t) => SetupConsistent(t)
            case Done(l) => l.valid && l.displayName != ""
  {
  }

  /** Because of that consistency, once the text is non-empty Save always saves:
      the "search and select first" refusal cannot happen on a fresh screen. */
  lemma SaveNeverRefused(s: LocationSetup, p: TouchPoint, a: LocationAnswers)
    requires SetupConsistent(s) && s.location != ""
    requires p.pressed && PointInRect(p.x, p.y, LocationSave)
    ensures LocationSetupStep(s, p, a) == Done(s.cached)
  {
  }

  function LocationSetupScreen(): (LocationSetup, (TouchPoint, LocationAnswers)) -> Step<LocationSetup, LocationInfo>
  {
    (s: LocationSetup, i: (TouchPoint, LocationAnswers)) => LocationSetupStep(s, i.0, i.1)
  }

  /** The screen starts with an empty text whatever the cached location is; any
      location it returns is valid and has a non-empty name. */
  lemma LocationSetupReturnsNamedLocation(cached: LocationInfo, inputs: seq<(TouchPoint, LocationAnswers)>)
    requires forall k :: 0 <= k < |inputs| ==> MatchesValid(inputs[k].1)
    ensures Run(LocationSetupScreen(), LocationSetup("", cached), inputs).Done? ==>
              var l := Run(LocationSetupScreen(), LocationSetup("", cached), inputs).result;
              l.valid && l.displayName != ""
  {
    var ok := (i: (TouchPoint, LocationAnswers)) => MatchesValid(i.1);
    var post := (l: LocationInfo) => l.valid && l.displayName != "";
    forall s: LocationSetup, i: (TouchPoint, LocationAnswers) | SetupConsistent(s) && ok(i)
      ensures match LocationSetupScreen()(s, i)
              case Continue(next) => SetupConsistent(next)
              case Done(l) => post(l)
    {
      LocationSetupStepKeeps(s, i.0, i.1);
    }
    RunKeeps(LocationSetupScreen(), ok, SetupConsistent, post, LocationSetup("", cached), inputs);
  }

  /** A default spot, once saved, loads back unchanged. */
  lemma DefaultSpotRoundTrip(choice: int, store: Store)
    requires choice == 1 || choice == 2
    ensures LoadSurfLocationInfo(SaveSurfLocation(store, DefaultSpot(choice).value, true).store, true)
            == DefaultSpot(choice).value
  {
    SurfLocationRoundTrip(store, DefaultSpot(choice).value);
  }
}
